=== FILE: README.md ===
# review-on-save, modelled in Dafny

review-on-save is a VS Code extension. When a file is saved, it sends the file's text to a language model and shows the answer, streamed token by token, in a preview panel beside the editor. It has two kinds of backend:

- the local Ollama server, which it can find, start and probe;
- the editor's own language-model API, which the source calls Copilot.

The user chooses the review criteria, the model and the service from three lists in the sidebar. The repository holds two generations of this code side by side:

- module-level functions (`src/ollama-service.ts`, `src/review-model-provider.ts`, `src/extension.ts`);
- classes behind a backend factory (`src/ai-service/`, `src/view-container/`).

The model states each file as written, with one exception. The module-level chat generator has a defect, listed under "## Findings", and the save handler uses its corrected form. Apart from that, the two generations are not reconciled.

Every awaited outside call becomes an input of the model:

- a fetch result (`Readiness.FetchResult`);
- an oracle `string -> bool` for shell commands;
- a resolved-or-rejected value (`Common.Attempt`);
- a stream of parts that may fail to start or may throw after its last part (`Common.Stream`);
- a sequence of random indices for the nonce.

Each operation is then a pure function or a short method over immutable records. Popup messages become an append-only log of `Notice`s. Terminal launches, waits and look-ups become an effect trace.

Modules, one per source file plus shared helpers:

| module | file | models |
|---|---|---|
| `Common` | common.dfy | option, attempt, result, notice and stream types |
| `Strings` | strings.dfy | accumulation, join/split with one delimiter, substring, the default string sort |
| `Utils` | utils.dfy | `src/utils.ts`: configuration target precedence, nonce |
| `Readiness` | readiness.dfy | the probe / install-check / start / re-probe procedure both local backends share, and its phase machine |
| `OllamaApi` | ollama_api.dfy | chat request shape and the stop-at-`done` loop |
| `ReviewScope` | review_scope_provider.dfy | `src/review-scope-provider.ts` |
| `ReviewPrompt` | review_prompt.dfy | the review prompt both chat generators build |
| `OllamaService` | ai_ollama_service.dfy | `src/ai-service/ollama-service.ts` |
| `CopilotService` | copilot_service.dfy | `src/copilot-service.ts` |
| `LegacyOllama` | legacy_ollama.dfy | `src/ollama-service.ts` |
| `AiServiceFactory` | ai_service_factory.dfy | `src/ai-service/ai-service-factory.ts` |
| `Radio` | radio.dfy | the radio-button tree item both selection lists draw |
| `ModelProvider` | model_provider.dfy | `src/view-container/review-model-provider.ts` |
| `LegacyModelProvider` | legacy_model_provider.dfy | `src/review-model-provider.ts` |
| `ServiceProvider` | service_provider.dfy | `src/view-container/review-service-provider.ts` |
| `PanelService` | panel_service.dfy | `src/panel-service.ts` |
| `Extension` | extension.dfy | `src/extension.ts` |

## Model

| member | source | states |
|---|---|---|
| `Readiness.Probe` | src/ai-service/ollama-service.ts:154-165 | the probe is up exactly when the fetch resolves with an OK response; its first effect is the fetch, and a failure shows the not-started error |
| `Readiness.InstallCheckCommand` | src/ai-service/ollama-service.ts:173-178 | `where ollama` on win32, `which ollama` on every other platform |
| `Readiness.InstallCheck` | src/ollama-service.ts:33-47 | installed exactly when the look-up command succeeds; one look-up, no launch, and a failure shows the not-installed error |
| `Readiness.StartOllama` | src/ai-service/ollama-service.ts:193-198 | launches `ollama serve` in the "Ollama Server" terminal, exactly once |
| `Readiness.StartAndReprobe` | src/ai-service/ollama-service.ts:49-63 | in this order: the starting notice, the launch, the 5000 ms wait, then the one re-probe whose answer is the result; the last effect reports success or failure |
| `Readiness.CheckReady` | src/ai-service/ollama-service.ts:37-64 | three exclusive branches: already up means ready with no look-up or launch; not installed means not ready with no launch; otherwise one launch, and the result is the re-probe; the outside steps come in the order probe, look-up, launch, wait, re-probe |
| `Readiness.CheckReadyReports` | src/ai-service/ollama-service.ts:37-64 | what the user is shown: an up server ends with the already-running notice; otherwise the not-started error comes second, the install check's effects follow unchanged, and the run ends with the install check's own diagnostic when it fails, or else with the started or failed-to-start report |
| `Readiness.CheckReadyFollowsLifecycle` | src/ai-service/ollama-service.ts:37-64 | the answers observed drive the phase machine Unknown→Running / NotRunning→NotInstalled / Starting→Running or FailedToStart to a terminal phase; ready exactly when it ends Running; at most one launch |
| `OllamaService.New` | src/ai-service/ollama-service.ts:22-31 | the endpoint is the configured one or `http://localhost:11434`; the instance starts idle |
| `OllamaService.CheckOllamaInstalled` | src/ai-service/ollama-service.ts:171-188 | the shared look-up, plus an error naming the download page when the executable is missing |
| `OllamaService.Initialize` | src/ai-service/ollama-service.ts:37-64 | probes the configured endpoint first; the three branches of the readiness procedure with the launch count of each; its outside steps are, in order, the probe, then the look-up when the probe fails, then the launch, the wait and the re-probe when the look-up succeeds; the last thing shown is the already-running notice, the install-from-ollama.com error when the look-up fails, or the started or failed-to-start report |
| `OllamaService.InitializeFollowsLifecycle` | src/ai-service/ollama-service.ts:37-64 | the class-based readiness follows the phase machine |
| `OllamaService.GetAvailableModels` | src/ai-service/ollama-service.ts:70-73 | the listed names, sorted, as a permutation of the listing |
| `OllamaService.Chat` | src/ai-service/ollama-service.ts:80-148 | a busy call only warns; the request is sent exactly when the instance is idle and the listing names the model; an unlisted model gives one error; the request has the system and user messages, streaming, keep_alive 0 and the built prompt; the tokens are the contents before the first `done` part; the flag is clear on every exit; completion is reported exactly when a `done` part arrives; the call rejects exactly when the listing or the chat call rejects, or the stream throws before `done` |
| `OllamaService.BusyCallIsRejected` | src/ai-service/ollama-service.ts:84-87 | a busy call yields nothing, sends nothing and leaves the flag to its holder |
| `OllamaService.FlagReleased` | src/ai-service/ollama-service.ts:145-147 | whatever happened to one call on an idle instance, the next call with a listed model sends its request and yields the stream's tokens |
| `OllamaApi.UntilDone` | src/ai-service/ollama-service.ts:135-144 | the part contents in order, stopping before the first `done` part, which is present whenever the loop stops early |
| `OllamaApi.StopsAtDone` | src/ai-service/ollama-service.ts:135-144 | the loop stops early exactly when some part is `done` |
| `ReviewPrompt.Build` | src/ai-service/ollama-service.ts:105-115 | the prompt is the opening fence, the file text verbatim, the closing fence and preamble, the labels joined by `、`, and the fixed instructions, each found back at its offset |
| `ReviewPrompt.PromptRoundTrip` | src/copilot-service.ts:120-130 | the fenced file text and the criteria clause read back give the file text and exactly the given labels, in order |
| `ReviewPrompt.PromptNamesEveryLabel` | src/ai-service/ollama-service.ts:110 | every checked label occurs in the prompt |
| `ReviewPrompt.CatalogueIsPlain` | src/review-scope-provider.ts:32-39 | none of the six criteria is empty or contains `、` |
| `ReviewPrompt.CriteriaFitPrompt` | src/ai-service/ollama-service.ts:101-103 | the labels of the checked items satisfy the round trip's requirements |
| `ReviewScope.Initial` | src/review-scope-provider.ts:32-39 | six items with the fixed labels in order, pairwise distinct, none selected |
| `ReviewScope.GetCheckedItems` | src/review-scope-provider.ts:87-89 | an order-preserving subsequence holding exactly the selected items |
| `ReviewScope.CheckedOfAppend` | src/review-scope-provider.ts:87-89 | the filter distributes over concatenation |
| `ReviewScope.FindTarget` | src/review-scope-provider.ts:56 | the first item with the label, or none when no item has it |
| `ReviewScope.OnCheckboxChange` | src/review-scope-provider.ts:54-62 | an event never changes the labels or their order |
| `ReviewScope.CheckboxEventEffect` | src/review-scope-provider.ts:54-62 | each named item becomes selected exactly when the last entry for it is Checked; unnamed items are unchanged; unknown labels are ignored; size and labels are kept |
| `CopilotService.New` | src/copilot-service.ts:11-14 | the provider is `github` and the instance starts idle |
| `CopilotService.CheckCopilotExtension` | src/copilot-service.ts:75-88 | a missing extension is reported and its page opened, answering false; a present one answers true with no effect |
| `CopilotService.CheckCopilotAuth` | src/copilot-service.ts:59-69 | asks for a `github` session, creating one if none exists; true exactly when granted; a refusal is reported |
| `CopilotService.GetAvailableModelIds` | src/copilot-service.ts:43-52 | the ids in the order offered, unsorted; none offered gives `[]` and an error |
| `CopilotService.Initialize` | src/copilot-service.ts:20-37 | true exactly when the extension is present, the session is granted and some model is offered; a rejected listing rejects; the extension page is opened exactly when the extension is missing, and a session is asked for exactly when it is present; the failing sub-check is reported: the missing-extension error comes first, the authentication error or the no-models error comes last, and a notice is shown exactly when the answer is false |
| `CopilotService.InitializeShortCircuits` | src/copilot-service.ts:21-29 | once a check fails, the later checks' answers do not matter |
| `CopilotService.GetModelById` | src/copilot-service.ts:162-168 | a listed model with that id, or none exactly when no model has it |
| `CopilotService.LookupAgreesWithListing` | src/copilot-service.ts:162-168 | the lookup finds a model exactly when its id is listed |
| `CopilotService.TextPartsAppend` | src/copilot-service.ts:143-147 | the text of a stream in two pieces is the text of the pieces, in order |
| `CopilotService.TextParts` | src/copilot-service.ts:143-147 | the loop yields no more tokens than the stream has parts, and every yielded token is the value of a text part of the stream |
| `CopilotService.TextPartsOfOthers` | src/copilot-service.ts:143-147 | a stream of non-text parts yields nothing |
| `CopilotService.ChatCopilot` | src/copilot-service.ts:95-154 | a busy call only warns; a request is sent exactly when the model is listed and found again by id; the tokens are the text parts; completion is reported exactly when the stream ends normally; a rejected listing, a rejected model lookup, a rejected request or a throwing stream is reported as the last notice; a model missing from the listing gives exactly the listing's notices followed by the model-unavailable error, whatever the later lookup would have answered; a listed model not found again by id ends with the model-unavailable error; the flag is clear afterwards |
| `CopilotService.Exchange` | src/copilot-service.ts:141-153 | sends the request; the tokens are the text parts of a started stream; completion or a caught error is reported last |
| `CopilotService.ChatNeverSticks` | src/copilot-service.ts:151-153 | after any call on an idle instance, the next call is served |
| `LegacyOllama.SetupFailedNamesDownloadUrl` | src/ollama-service.ts:70-76 | the not-installed diagnostic contains the download URL |
| `LegacyOllama.InstallCheckThenReport` | src/ollama-service.ts:70-76 | the look-up, then the diagnostic naming the download page when it fails |
| `LegacyOllama.SetupOllama` | src/ollama-service.ts:63-93 | the same three exclusive branches against the fixed local endpoint, with the same order of outside steps; the last thing shown is the already-running notice, the setup-failed error when the look-up fails, or the started or failed-to-start report |
| `LegacyOllama.SetupFollowsLifecycle` | src/ollama-service.ts:63-93 | the legacy readiness follows the same phase machine |
| `LegacyOllama.LegacyRequest` | src/ollama-service.ts:110-119 | model `gemma3:latest`, one user message that is the file text followed by the fixed request sentence, streaming, no keep_alive |
| `LegacyOllama.ChatOllama` | src/ollama-service.ts:100-129 | a busy call does nothing at all; otherwise the fixed request is sent, the tokens stop before the first `done` part, and the flag ends clear exactly when a `done` part arrived |
| `LegacyOllama.StuckFlagSilencesLaterCalls` | src/ollama-service.ts:109-128 | if no `done` part arrives, the flag stays set and every later call does nothing |
| `LegacyOllama.RejectedRequestBlocksNextReview` | src/ollama-service.ts:109-119 | a rejected chat call, then a second save that gets no request and no tokens |
| `LegacyOllama.ChatOllamaReleasing` | src/ai-service/ollama-service.ts:145-147 | same tokens, request and rejection as the as-written generator, but the flag is clear on every exit |
| `LegacyOllama.ReleasingServesEveryCall` | src/ollama-service.ts:103-109 | with the release, every call of a session sends its request |
| `AiServiceFactory.CreateAiService` | src/ai-service/ai-service-factory.ts:30-39 | `copilot` and `ollama` build an idle backend of that kind; any other kind fails with the unsupported-type message |
| `AiServiceFactory.New` | src/ai-service/ai-service-factory.ts:14-20 | the configured kind, `copilot` when unset; construction fails for an unknown kind |
| `AiServiceFactory.SwitchAiService` | src/ai-service/ai-service-factory.ts:26-28 | on success the active backend is a new, idle backend of the requested kind, the next construction in order; a throwing construction leaves the factory unchanged |
| `AiServiceFactory.SwitchGivesFreshInstance` | src/ai-service/ai-service-factory.ts:22-28 | after a switch, even to the same kind, `getAiService` returns the backend just constructed, of that kind, never handed out before, and idle |
| `AiServiceFactory.SwitchDropsBusyFlag` | src/ai-service/ollama-service.ts:20 | a busy backend's flag does not carry over a switch to its own kind |
| `Radio.Item` | src/view-container/review-model-provider.ts:54-65 | the item shows the element, runs the select command with it, and is filled exactly when it is the selection |
| `Radio.FilledIsTheSelection` | src/view-container/review-service-provider.ts:51-55 | among distinct elements, exactly the selected one is filled, or none when the selection is not listed |
| `ModelProvider.New` | src/view-container/review-model-provider.ts:18-24 | the configured default model when non-empty, else none; no models yet |
| `ModelProvider.GetTreeItem` | src/view-container/review-model-provider.ts:54-65 | filled exactly when the element is the selected model |
| `ModelProvider.SelectModel` | src/view-container/review-model-provider.ts:79-85 | selects the argument whether listed or not, and writes it to the default-model setting at the model setting's scope |
| `ModelProvider.SetupModels` | src/view-container/review-model-provider.ts:91-97 | replaces the list; picks the first model only when nothing was selected |
| `ModelProvider.SetupModelsSettles` | src/view-container/review-model-provider.ts:93-95 | pushing a list twice equals pushing it once; a non-empty list whose first name is non-empty leaves a model selected, one of the list's unless the user chose before |
| `ModelProvider.SelectionSurvivesSetup` | src/view-container/review-model-provider.ts:79-97 | a user's selection survives any later list |
| `LegacyModelProvider.New` | src/review-model-provider.ts:11-22 | the configured model when non-empty, even if not listed; else the first model; else none |
| `LegacyModelProvider.NewSelectsListedModel` | src/review-model-provider.ts:17-21 | without a configured model, a model is selected from the list exactly when the list is non-empty |
| `LegacyModelProvider.GetTreeItem` | src/review-model-provider.ts:52-63 | filled exactly when the element is the selected model; runs `radio.select` |
| `LegacyModelProvider.SelectModel` | src/review-model-provider.ts:77-83 | selects the argument and writes the model setting at the scope its inspection gives |
| `LegacyModelProvider.SelectionIsShownAndStored` | src/review-model-provider.ts:77-107 | selecting a listed model fills exactly its item, and the chosen scope keeps the written value |
| `Utils.TargetFor` | src/review-model-provider.ts:90-107 | Workspace when a workspace value exists; else WorkspaceFolder when a folder value exists; else Global, also when nothing could be inspected |
| `Utils.GetConfigurationTarget` | src/utils.ts:28-45 | the same precedence, applied to the model setting's inspection |
| `Utils.TargetReadsOnlyModelSetting` | src/utils.ts:30 | only the model setting's inspection decides the scope, whatever setting is about to be written |
| `Utils.TargetIsStable` | src/utils.ts:32-44 | after a write at the chosen scope, the scope chosen next is the same and holds the value |
| `Utils.PossibleIsAlphanumeric` | src/utils.ts:15-16 | the alphabet has 62 distinct alphanumeric characters |
| `Utils.CharAt` | src/utils.ts:18 | one character inside the string, the empty string past its end |
| `Utils.GetNonce` | src/utils.ts:13-21 | 32 characters, the i-th being the alphabet's character at the i-th draw, all alphanumeric |
| `Utils.NonceReachable` | src/panel-service.ts:7-15 | every 32-character alphanumeric string is the nonce of some draws |
| `Utils.IndexIn` | src/utils.ts:15-16 | each alphanumeric character has a position in the alphabet |
| `ServiceProvider.New` | src/view-container/review-service-provider.ts:18-33 | `copilot` selected among `[copilot, ollama]`, overridden by a non-empty configured service |
| `ServiceProvider.GetTreeItem` | src/view-container/review-service-provider.ts:51-62 | filled exactly when the element is the selected service; runs `service.select` |
| `ServiceProvider.SetupServices` | src/view-container/review-service-provider.ts:85-91 | replaces the list and selects its first entry, else keeps the selection |
| `ServiceProvider.SetupServicesIdempotent` | src/view-container/review-service-provider.ts:85-91 | setting up the same list twice equals once |
| `ServiceProvider.Offered` | src/ai-service/ollama-service.ts:70-73 | the Ollama backend offers its listed names sorted, as a permutation of the listing |
| `ServiceProvider.SelectService` | src/view-container/review-service-provider.ts:68-83 | selects the service and writes it at the model setting's scope; the switch throws exactly for an unknown kind and then leaves the factory unchanged; otherwise the factory serves a backend of that kind, even when the listing then rejects; the models that backend offers are pushed; an unknown kind or a rejected listing leaves the model list as it was |
| `ServiceProvider.SelectionIsConsistent` | src/view-container/review-service-provider.ts:68-83 | after a selection, the selected service, the factory's backend kind and the model list all agree; the model list is a permutation of the backend's listing, sorted for Ollama |
| `PanelService.SetupPanel` | src/panel-service.ts:17-89 | an existing panel is disposed and nothing returned; otherwise a new panel with a 32-character alphanumeric nonce drawn from the oracle |
| `PanelService.Handle` | src/panel-service.ts:68-79 | `updateContent` replaces the output with the rendering of its content, `clearContent` empties it, any other command is ignored |
| `PanelService.LastMessageWins` | src/panel-service.ts:68-79 | after a run of understood messages the page shows what the last one says |
| `PanelService.OtherCommandsIgnored` | src/panel-service.ts:68-79 | messages with other commands leave the page as it was |
| `Extension.Activate` | src/extension.ts:38-40 | the model list is seeded with the models fetched at activation; no panel |
| `Extension.OnPanelDisposed` | src/extension.ts:51-53 | the dispose callback forgets the panel |
| `Extension.PreviewOpen` | src/extension.ts:48-63 | closing an open panel runs no readiness; opening one runs the legacy readiness procedure once |
| `Extension.ToggleTwice` | src/extension.ts:51-56 | pressing the command twice opens, then closes, and the second press readies nothing |
| `Extension.Relay` | src/extension.ts:78-91 | one clear first, then one update per token, the k-th carrying the first k tokens concatenated |
| `Extension.RelayPayloadsGrow` | src/extension.ts:80-91 | each update's payload is a prefix of every later one |
| `Extension.RelayShowsWholeReview` | src/extension.ts:78-91 | after the relay the panel shows the rendering of the whole review, or nothing when no token came |
| `Extension.OnSave` | src/extension.ts:68-94 | no panel, or a saved document that is not the active editor's, means nothing happens; otherwise the file is reviewed by the corrected local generator and its tokens relayed |
| `Extension.SaveTwice` | src/extension.ts:68-94 | with the corrected generator, two saves of the active document are each reviewed and relayed, whatever became of the first; the flag ends clear |

## Left out

- The editor's user-interface glue is not modelled:
  - tree-view creation;
  - command registration;
  - `refresh` events;
  - `context.subscriptions`;
  - the providers' `initialize` methods.

  Popups are an append-only log of notices.
- `CopilotService.CheckCopilotAuth` and `CopilotService.ChatCopilot`: the `${error}` text appended to the authentication and chat error messages is not rendered. The notices carry only the fixed prefix.
- Asynchronous interleaving is not modelled. Calls are sequential, so nothing is claimed about two overlapping chats. The busy flag is set only after an awaited listing, so it does not exclude them.
- A consumer that stops a generator early is not modelled. Neither is a panel disposed while a review is being relayed: the source would then dereference the cleared module variable.
- The 5000 ms `setTimeout` is the effect `Waited(5000)` before the single re-probe.
- `Math.random` is replaced by the sequence of drawn indices.
- The HTML page, its Content-Security-Policy and the marked/Prism rendering are not modelled. The renderer is an uninterpreted function of the content.
- `src/ai-service/ai-service-interface.ts` is a type declaration only.
- `src/ai-service/copilot-service.ts` (imported by the factory) is not part of this model. The Copilot backend modelled is `src/copilot-service.ts`.
- `src/extension.ts` calls `getAvailableModels`, `setupOllama` and `chatOllama` on an `OllamaService` class that `src/ollama-service.ts` does not export. The model uses that file's module functions:
  - the activation listing is an input;
  - the open command runs `LegacyOllama.SetupOllama`;
  - the save handler runs `LegacyOllama.ChatOllamaReleasing`, and the model argument it passes is dropped because `chatOllama` takes only the file text.
- The view-container files import constants that `src/utils.ts` does not define (`DEFAULT_MODEL`, `SERVICE_SETTING`, `SELECT_MODEL_COMMAND`, `MODES_VIEW_ID`):
  - the settings are distinct abstract names;
  - the model command id `select.model` comes from the comment above `selectModel`.
- `OllamaService.GetAvailableModels`: it sorts by code point, whereas JavaScript's default sort compares UTF-16 code units. The two orders differ only for characters outside the Basic Multilingual Plane.
- `Extension.OnSave`: relays the corrected generator `LegacyOllama.ChatOllamaReleasing`, not `chatOllama` as written. The save path is the one the defect under "## Findings" affects, so the model states the intended behaviour there. The as-written behaviour of this path is stated separately: `LegacyOllama.StuckFlagSilencesLaterCalls` shows that after a call without a `done` part, every later call yields nothing. A later save would then post only the clear message.
- `ModelProvider.SetupModelsSettles`: "a model is selected after setup" needs the first listed name to be non-empty. The source's `""` doubles as "none selected".
- `ServiceProvider.SelectService`: the configuration write is recorded but not awaited, and its failure is not modelled. The same holds for both `SelectModel`s.
- `ServiceProvider.Offered`: for the Copilot kind the factory builds the backend of `src/ai-service/copilot-service.ts`, which is not part of this model, so that backend's listing is taken as reported.
- `AiServiceFactory.SwitchAiService`: the instance's identity is a construction serial. The review-scope provider reference each backend holds is not modelled.
- Plain accessors carry no contract and no row of their own: `AiServiceFactory.GetAiService` (src/ai-service/ai-service-factory.ts:22-24), `ReviewScope.GetChildren` (src/review-scope-provider.ts:83-85), `ModelProvider.GetSelectedModel` and `ModelProvider.GetChildren` (src/view-container/review-model-provider.ts:37-39, 71-73), `LegacyModelProvider.GetSelectedModel` and `LegacyModelProvider.GetChildren` (src/review-model-provider.ts:35-37, 69-71), `ServiceProvider.GetSelectedService` and `ServiceProvider.GetChildren` (src/view-container/review-service-provider.ts:43-45, 64-66). Each returns one stored field. What they return is stated by the lemmas that read through them, such as `AiServiceFactory.SwitchGivesFreshInstance`, `ModelProvider.SelectionSurvivesSetup` and `ServiceProvider.SelectionIsConsistent`.
- `PanelService.SetupPanel`: the panel's view type, title, column and resource roots are constants of the call, not modelled.

## Findings

| source | as written | input that shows it | evidently intended | confidence | as-written member | corrected member |
|---|---|---|---|---|---|---|
| src/ollama-service.ts:109-128 | `chatOllama` sets the module flag before awaiting `ollama.chat` and clears it only when a `done` part arrives | the first save's `ollama.chat` rejects (server down), or its stream ends or throws without a `done` part; every later save then returns at line 103 without a review | the flag is released on every exit, as the `finally` block of `src/ai-service/ollama-service.ts:145-147` does | high, not executed | `LegacyOllama.RejectedRequestBlocksNextReview` | `LegacyOllama.ChatOllamaReleasing` |

=== FILE: ai_ollama_service.dfy ===
/**
 * The class-based local backend (`OllamaService`): readiness via the shared readiness
 * check, sorted model listing, and the streaming review chat guarded by a per-instance
 * busy flag that a `finally` block releases.
 */
module OllamaService {
  import opened Common
  import Strings
  import Readiness
  import ReviewScope
  import ReviewPrompt
  import OllamaApi

  const MarkdownInstruction := "Please output in Markdown format"

  const InstallFromText := Readiness.DownloadUrl + " からOllamaをインストールしてください"
  const CompletedText := "Ollamaとのチャットが完了しました"

  /** An instance: the endpoint read at construction and the busy flag. */
  datatype Service = Service(endpoint: string, isProcessing: bool)

  /** The constructor: the configured `apiEndpoint`, or the local default; not busy. */
  function New(configuredEndpoint: Option<string>): (s: Service)
    ensures !s.isProcessing
    ensures configuredEndpoint.None? ==> s.endpoint == Readiness.LocalEndpoint
    ensures configuredEndpoint.Some? ==> s.endpoint == configuredEndpoint.value
  {
    Service(configuredEndpoint.GetOr(Readiness.LocalEndpoint), false)
  }

  /** `checkOllamaInstalled()`: the shared lookup, plus a notice naming the download page. */
  function CheckOllamaInstalled(platform: string, exec: string -> bool): (r: Readiness.Check)
    ensures r.ok == exec(Readiness.InstallCheckCommand(platform))
    ensures !r.ok ==> |r.effects| >= 1 && r.effects[|r.effects| - 1] == Readiness.Shown(Notice(Error, InstallFromText))
    ensures Readiness.Observations(r.effects) == [r.ok] && Readiness.Launches(r.effects) == 0
    ensures Readiness.Milestones(r.effects) == [Readiness.Executed(Readiness.InstallCheckCommand(platform), r.ok)]
  {
    var c := Readiness.InstallCheck(platform, exec);
    if c.ok then c
    else
      var tail := [Readiness.Shown(Notice(Error, InstallFromText))];
      Readiness.ObservationsAppend(c.effects, tail);
      Readiness.Check(false, c.effects + tail)
  }

  /**
   * `initialize()`: probe the configured endpoint; if down, check the installation; if
   * installed, start the server once, wait the settling interval and probe once more.
   */
  function Initialize(s: Service, first: Readiness.FetchResult, platform: string, exec: string -> bool,
                      second: Readiness.FetchResult): (r: Readiness.Check)
    ensures |r.effects| >= 1 && r.effects[0] == Readiness.Fetched(s.endpoint, first == Readiness.Responded(true))
    ensures first == Readiness.Responded(true) ==> r.ok && Readiness.Launches(r.effects) == 0
    ensures first != Readiness.Responded(true) && !exec(Readiness.InstallCheckCommand(platform)) ==>
              && !r.ok
              && Readiness.Launches(r.effects) == 0
    ensures first != Readiness.Responded(true) && exec(Readiness.InstallCheckCommand(platform)) ==>
              && (r.ok <==> second == Readiness.Responded(true))
              && Readiness.Launches(r.effects) == 1
    ensures Readiness.Milestones(r.effects) ==
              Readiness.Timeline(s.endpoint, first == Readiness.Responded(true), Readiness.InstallCheckCommand(platform),
                                 exec(Readiness.InstallCheckCommand(platform)), r.ok)
    ensures first == Readiness.Responded(true) ==>
              r.effects[|r.effects| - 1] == Readiness.Shown(Notice(Info, Readiness.AlreadyRunningText))
    ensures first != Readiness.Responded(true) && !exec(Readiness.InstallCheckCommand(platform)) ==>
              r.effects[|r.effects| - 1] == Readiness.Shown(Notice(Error, InstallFromText))
    ensures first != Readiness.Responded(true) && exec(Readiness.InstallCheckCommand(platform)) ==>
              r.effects[|r.effects| - 1] ==
                Readiness.Shown(if r.ok then Notice(Info, Readiness.StartedText) else Notice(Error, Readiness.StartFailedText))
  {
    var install := CheckOllamaInstalled(platform, exec);
    var r := Readiness.CheckReady(s.endpoint, first, install, second);
    Readiness.CheckReadyReports(s.endpoint, first, install, second);
    Readiness.CheckReadyTimeline(s.endpoint, first, Readiness.InstallCheckCommand(platform), install, second);
    r
  }

  /** The backend's readiness follows the shared life cycle. */
  lemma InitializeFollowsLifecycle(s: Service, first: Readiness.FetchResult, platform: string, exec: string -> bool,
                                   second: Readiness.FetchResult)
    ensures var r := Initialize(s, first, platform, exec, second);
            var phase := Readiness.Run(Readiness.Unknown, Readiness.Observations(r.effects));
            Readiness.Terminal(phase) && (r.ok <==> phase == Readiness.Running)
  {
    Readiness.CheckReadyFollowsLifecycle(s.endpoint, first, CheckOllamaInstalled(platform, exec), second);
  }

  /** `getAvailableModels()`: the names `ollama.list()` reports, sorted. */
  function GetAvailableModels(names: seq<string>): (r: seq<string>)
    ensures Strings.Sorted(r)
    ensures multiset(r) == multiset(names)
    ensures forall m :: m in r <==> m in names
  {
    var r := Strings.SortStrings(names);
    assert forall m :: m in r <==> m in multiset(r);
    r
  }

  /** The outcome of one `chat` generator run. */
  datatype ChatRun = ChatRun(
    tokens: seq<string>,
    service: Service,
    request: Option<OllamaApi.ChatRequest>,
    notices: seq<Notice>,
    raised: bool)

  /** The request `chat` sends for a model and prompt. */
  function ReviewRequest(model: string, prompt: string): OllamaApi.ChatRequest {
    OllamaApi.ChatRequest(model,
      [OllamaApi.ChatMessage(OllamaApi.System, MarkdownInstruction), OllamaApi.ChatMessage(OllamaApi.User, prompt)],
      true, Some(0))
  }

  /**
   * `chat(fileContent, model)`, with `ollama.list()` as `listing`, the stream of
   * `ollama.chat` as `stream` and the provider's list as `scope`.
   */
  function Chat(s: Service, fileContent: string, model: string, scope: seq<ReviewScope.ReviewTarget>,
                listing: Attempt<seq<string>>, stream: Stream<OllamaApi.Part>): (r: ChatRun)
    ensures r.service.endpoint == s.endpoint
    ensures s.isProcessing ==>
              r == ChatRun([], s, None, [Notice(Warning, ReviewPrompt.BusyText)], false)
    ensures !s.isProcessing ==> !r.service.isProcessing
    ensures listing.Ok? && model !in listing.value ==> r.tokens == [] && r.request.None?
    ensures r.request.Some? <==> !s.isProcessing && listing.Ok? && model in listing.value
    ensures r.request.Some? ==>
              r.request.value == ReviewRequest(model, ReviewPrompt.Build(fileContent, ReviewScope.CheckedLabels(scope)))
    ensures r.tokens != [] ==> r.request.Some? && stream.started
    ensures r.request.Some? && stream.started ==> r.tokens == OllamaApi.UntilDone(stream.parts)
    ensures !s.isProcessing && listing.Ok? && model !in listing.value ==>
              r.notices == [Notice(Error, ReviewPrompt.UnavailableText(model))]
    ensures Notice(Info, CompletedText) in r.notices <==>
              r.request.Some? && stream.started && OllamaApi.HasDone(stream.parts)
    ensures r.raised <==>
              && !s.isProcessing
              && (|| listing.Threw?
                  || (model in listing.value && (!stream.started || (!OllamaApi.HasDone(stream.parts) && stream.breaks))))
  {
    if s.isProcessing then ChatRun([], s, None, [Notice(Warning, ReviewPrompt.BusyText)], false)
    else
      // From here on the `finally` block leaves the flag cleared whichever way the call ends.
      match listing
      case Threw => ChatRun([], s, None, [], true)
      case Ok(names) =>
        if model !in GetAvailableModels(names) then
          ChatRun([], s, None, [Notice(Error, ReviewPrompt.UnavailableText(model))], false)
        else
          var request := ReviewRequest(model, ReviewPrompt.Build(fileContent, ReviewScope.CheckedLabels(scope)));
          var chatting := [Notice(Info, ReviewPrompt.ChattingText(model))];
          assert CompletedText != ReviewPrompt.ChattingText(model) by {
            assert CompletedText[0] != ReviewPrompt.ChattingText(model)[|model|];
          }
          if !stream.started then ChatRun([], s, Some(request), chatting, true)
          else
            var tokens := OllamaApi.UntilDone(stream.parts);
            OllamaApi.StopsAtDone(stream.parts);
            var done := |tokens| < |stream.parts|;
            ChatRun(tokens, s.(isProcessing := false), Some(request),
                    chatting + (if done then [Notice(Info, CompletedText)] else []),
                    !done && stream.breaks)
  }

  /** A call made while another holds the flag yields nothing and leaves the flag to its holder. */
  lemma BusyCallIsRejected(s: Service, fileContent: string, model: string, scope: seq<ReviewScope.ReviewTarget>,
                           listing: Attempt<seq<string>>, stream: Stream<OllamaApi.Part>)
    requires s.isProcessing
    ensures var r := Chat(s, fileContent, model, scope, listing, stream);
            r.tokens == [] && r.service.isProcessing && r.request.None?
  {
  }

  /** After any call on an idle instance the next call is not rejected as busy. */
  lemma FlagReleased(s: Service, fileContent: string, model: string, scope: seq<ReviewScope.ReviewTarget>,
                     listing: Attempt<seq<string>>, stream: Stream<OllamaApi.Part>,
                     fileContent': string, model': string, listing': Attempt<seq<string>>, stream': Stream<OllamaApi.Part>)
    requires !s.isProcessing
    requires listing'.Ok? && model' in listing'.value && stream'.started
    ensures var r := Chat(s, fileContent, model, scope, listing, stream);
            var r' := Chat(r.service, fileContent', model', scope, listing', stream');
            r'.request.Some? && r'.tokens == OllamaApi.UntilDone(stream'.parts)
  {
  }
}

=== FILE: ai_service_factory.dfy ===
/**
 * The backend factory (`AiServiceFactory`): builds the backend for a service kind,
 * keeps the active one, and replaces it on a switch. Each construction yields a new
 * instance, numbered here by a serial so that freshness can be stated.
 */
module AiServiceFactory {
  import opened Common
  import CopilotService
  import OllamaService

  const CopilotKind := "copilot"
  const OllamaKind := "ollama"

  function UnsupportedText(kind: string): string {
    "未対応のサービスタイプです: " + kind
  }

  datatype Backend = CopilotBackend(copilot: CopilotService.Service) | OllamaBackend(ollama: OllamaService.Service)

  /** A constructed backend and the serial of its construction. */
  datatype Instance = Instance(serial: nat, backend: Backend)

  /** The factory: the active backend and how many have been constructed. */
  datatype Factory = Factory(active: Instance, created: nat)

  predicate Valid(f: Factory) {
    f.active.serial < f.created
  }

  function KindOf(b: Backend): string {
    match b
    case CopilotBackend(_) => CopilotKind
    case OllamaBackend(_) => OllamaKind
  }

  predicate IsBusy(b: Backend) {
    match b
    case CopilotBackend(c) => c.isProcessing
    case OllamaBackend(o) => o.isProcessing
  }

  /**
   * `createAiService(kind)`: a new backend of that kind; any other kind throws.
   * `endpoint` is the `apiEndpoint` setting the local backend reads when constructed.
   */
  function CreateAiService(kind: string, serial: nat, endpoint: Option<string>): (r: Result<Instance>)
    ensures r.Success? <==> kind == CopilotKind || kind == OllamaKind
    ensures r.Success? ==> KindOf(r.value.backend) == kind && r.value.serial == serial && !IsBusy(r.value.backend)
    ensures r.Failure? ==> r.error == UnsupportedText(kind)
  {
    if kind == CopilotKind then Success(Instance(serial, CopilotBackend(CopilotService.New())))
    else if kind == OllamaKind then Success(Instance(serial, OllamaBackend(OllamaService.New(endpoint))))
    else Failure(UnsupportedText(kind))
  }

  /** The constructor: the backend for the configured `aiServiceType`, `copilot` when unset. */
  function New(configuredKind: Option<string>, endpoint: Option<string>): (r: Result<Factory>)
    ensures configuredKind.None? ==> r.Success? && KindOf(r.value.active.backend) == CopilotKind
    ensures r.Success? ==> Valid(r.value) && KindOf(r.value.active.backend) == configuredKind.GetOr(CopilotKind)
    ensures r.Failure? <==> configuredKind.GetOr(CopilotKind) !in {CopilotKind, OllamaKind}
  {
    match CreateAiService(configuredKind.GetOr(CopilotKind), 0, endpoint)
    case Success(i) => Success(Factory(i, 1))
    case Failure(e) => Failure(e)
  }

  /** `getAiService()`: the active backend. */
  function GetAiService(f: Factory): Instance {
    f.active
  }

  /**
   * `switchAiService(kind)`: construct a backend of that kind and make it the active
   * one; when construction throws, the error propagates and the factory is unchanged.
   */
  function SwitchAiService(f: Factory, kind: string, endpoint: Option<string>): (r: (Factory, Option<string>))
    requires Valid(f)
    ensures Valid(r.0)
    ensures r.1.None? <==> kind == CopilotKind || kind == OllamaKind
    ensures r.1.Some? ==> r.0 == f && r.1.value == UnsupportedText(kind)
    ensures r.1.None? ==>
              && KindOf(r.0.active.backend) == kind && !IsBusy(r.0.active.backend)
              && r.0.active.serial == f.created && r.0.created == f.created + 1
  {
    match CreateAiService(kind, f.created, endpoint)
    case Success(i) => (Factory(i, f.created + 1), None)
    case Failure(e) => (f, Some(e))
  }

  /**
   * After a successful switch, even to the kind already active, the factory hands out
   * a backend of that kind that was never handed out before and is not busy: every
   * instance constructed earlier carries a serial below `f.created`.
   */
  lemma SwitchGivesFreshInstance(f: Factory, kind: string, endpoint: Option<string>)
    requires Valid(f)
    requires kind == CopilotKind || kind == OllamaKind
    ensures var g := SwitchAiService(f, kind, endpoint).0;
            && KindOf(GetAiService(g).backend) == kind
            && GetAiService(g).serial == f.created
            && (forall earlier: Instance :: earlier.serial < f.created ==> GetAiService(g) != earlier)
            && !IsBusy(GetAiService(g).backend)
  {
  }

  /** A busy backend does not stay busy across a switch to the same kind. */
  lemma SwitchDropsBusyFlag(f: Factory, endpoint: Option<string>)
    requires Valid(f) && IsBusy(f.active.backend)
    ensures var g := SwitchAiService(f, KindOf(f.active.backend), endpoint).0;
            GetAiService(g) != GetAiService(f) && !IsBusy(GetAiService(g).backend)
  {
    SwitchGivesFreshInstance(f, KindOf(f.active.backend), endpoint);
  }
}

=== FILE: common.dfy ===
/** Small value types shared by every module of the model. */
module Common {

  /** An optional value: TypeScript's `T | undefined` (or `T | null`). */
  datatype Option<+T> = None | Some(value: T) {
    function GetOr(default: T): T {
      match this
      case Some(v) => v
      case None => default
    }
  }

  /** The outcome of an awaited external call: it resolves with a value or it rejects. */
  datatype Attempt<+T> = Ok(value: T) | Threw

  /** A value or a thrown error carrying its message. */
  datatype Result<+T> = Success(value: T) | Failure(error: string)

  /** Severity of a message shown to the user through the editor's popups. */
  datatype Level = Info | Warning | Error

  /** One popup message; the model keeps them as an append-only log. */
  datatype Notice = Notice(level: Level, text: string)

  /**
   * An asynchronous stream of provider chunks: `started` is false when the call that
   * opens the stream rejects; otherwise `parts` are delivered in order and, when
   * `breaks` holds, the iteration throws right after the last of them.
   */
  datatype Stream<P> = Stream(started: bool, parts: seq<P>, breaks: bool)
}

=== FILE: copilot_service.dfy ===
/**
 * The editor's language-model backend (`CopilotService`): availability checks
 * (extension present, session obtained, some model offered), listing and lookup of
 * models by id, and the streaming review chat. Unlike the local backend, every error
 * raised inside the chat is caught and reported, so the chat never fails outwards.
 */
module CopilotService {
  import opened Common
  import ReviewScope
  import ReviewPrompt

  const ProviderId := "github"
  const ExtensionId := "github.copilot"

  const NoExtensionText := "GitHub Copilot拡張機能がインストールされていません。インストールをしてください"
  const NoModelsText := "利用可能なLanguage Modelが見つかりませんでした"
  /** Followed by the error's string form, which the model does not render. */
  const AuthFailedText := "認証に失敗しました: "
  /** Followed by the error's string form, which the model does not render. */
  const ErrorText := "エラーが発生しました: "
  const CompletedText := "Copilotとのチャットが完了しました"

  /** An instance: the authentication provider and the busy flag. */
  datatype Service = Service(providerId: string, isProcessing: bool)

  function New(): (s: Service)
    ensures s.providerId == ProviderId && !s.isProcessing
  {
    Service(ProviderId, false)
  }

  /** A chat model offered by `vscode.lm.selectChatModels()`; only its id matters here. */
  datatype LmModel = LmModel(id: string)

  /** A chunk of a response stream: a text part, or any other kind of part. */
  datatype LmPart = TextPart(value: string) | OtherPart

  /** What the backend does to the editor, in order. */
  datatype Effect =
    | Shown(notice: Notice)
    | OpenedExtensionPage(extensionId: string)
    | AskedSession(provider: string, createIfNone: bool)

  // ---------------------------------------------------------------------------
  // Availability

  /** `checkCopilotExtension()`: when the extension is missing, say so and open its page. */
  function CheckCopilotExtension(present: bool): (r: (bool, seq<Effect>))
    ensures r.0 == present
    ensures present ==> r.1 == []
    ensures !present ==> r.1 == [Shown(Notice(Error, NoExtensionText)), OpenedExtensionPage(ExtensionId)]
  {
    if present then (true, [])
    else (false, [Shown(Notice(Error, NoExtensionText)), OpenedExtensionPage(ExtensionId)])
  }

  /**
   * `checkCopilotAuth()`: ask for a session (creating one if none exists); a rejection
   * is reported and answered with false. `granted` is the outcome of the request.
   */
  function CheckCopilotAuth(s: Service, granted: bool): (r: (bool, seq<Effect>))
    ensures r.0 == granted
    ensures |r.1| >= 1 && r.1[0] == AskedSession(s.providerId, true)
    ensures !granted <==> Shown(Notice(Error, AuthFailedText)) in r.1
  {
    var ask := AskedSession(s.providerId, true);
    if granted then (true, [ask])
    else
      var r := [ask, Shown(Notice(Error, AuthFailedText))];
      assert r[1] == Shown(Notice(Error, AuthFailedText));
      (false, r)
  }

  /** The ids of the offered models, and the notice shown when there are none. */
  datatype Listing = Listing(ids: seq<string>, notices: seq<Notice>)

  /** `getAvailableModelIds()`: the ids in the order offered; none offered is reported. */
  function GetAvailableModelIds(models: seq<LmModel>): (r: Listing)
    ensures |r.ids| == |models|
    ensures forall i :: 0 <= i < |models| ==> r.ids[i] == models[i].id
    ensures r.notices == (if |models| == 0 then [Notice(Error, NoModelsText)] else [])
  {
    if |models| == 0 then Listing([], [Notice(Error, NoModelsText)])
    else Listing(seq(|models|, i requires 0 <= i < |models| => models[i].id), [])
  }

  /** The outcome of `initialize()`: resolved with an answer, or rejected. */
  datatype InitRun = InitRun(outcome: Attempt<bool>, effects: seq<Effect>)

  /**
   * `initialize()`: extension, then session, then models, stopping at the first check
   * that fails. A rejection of the model listing is not caught and rejects the call.
   */
  function Initialize(s: Service, extensionPresent: bool, granted: bool, listing: Attempt<seq<LmModel>>): (r: InitRun)
    ensures r.outcome == Ok(true) <==> extensionPresent && granted && listing.Ok? && |listing.value| > 0
    ensures r.outcome.Threw? <==> extensionPresent && granted && listing.Threw?
    ensures OpenedExtensionPage(ExtensionId) in r.effects <==> !extensionPresent
    ensures AskedSession(s.providerId, true) in r.effects <==> extensionPresent
    ensures !extensionPresent ==> |r.effects| >= 1 && r.effects[0] == Shown(Notice(Error, NoExtensionText))
    ensures extensionPresent && !granted ==>
              |r.effects| >= 1 && r.effects[|r.effects| - 1] == Shown(Notice(Error, AuthFailedText))
    ensures extensionPresent && granted && listing == Ok([]) ==>
              |r.effects| >= 1 && r.effects[|r.effects| - 1] == Shown(Notice(Error, NoModelsText))
    ensures (exists i :: 0 <= i < |r.effects| && r.effects[i].Shown?) <==> r.outcome == Ok(false)
  {
    var (present, e1) := CheckCopilotExtension(extensionPresent);
    if !present then
      assert e1[1] == OpenedExtensionPage(ExtensionId);
      InitRun(Ok(false), e1)
    else
      var (authed, e2) := CheckCopilotAuth(s, granted);
      if !authed then InitRun(Ok(false), e2)
      else
        match listing
        case Threw => InitRun(Threw, e2)
        case Ok(models) =>
          var l := GetAvailableModelIds(models);
          InitRun(Ok(|l.ids| > 0), e2 + seq(|l.notices|, i requires 0 <= i < |l.notices| => Shown(l.notices[i])))
  }

  /** Later checks are not consulted once an earlier one fails. */
  lemma InitializeShortCircuits(s: Service, granted: bool, granted': bool,
                                listing: Attempt<seq<LmModel>>, listing': Attempt<seq<LmModel>>)
    ensures Initialize(s, false, granted, listing) == Initialize(s, false, granted', listing')
    ensures Initialize(s, true, false, listing) == Initialize(s, true, false, listing')
  {
  }

  // ---------------------------------------------------------------------------
  // Model lookup

  /** `getModelById(id)`: the first offered model with that id (`find`), or none. */
  function GetModelById(models: seq<LmModel>, id: string): (r: Option<LmModel>)
    ensures r.Some? ==> r.value in models && r.value.id == id
    ensures r.None? <==> forall i :: 0 <= i < |models| ==> models[i].id != id
  {
    if |models| == 0 then None
    else if models[0].id == id then Some(models[0])
    else GetModelById(models[1..], id)
  }

  /** A model is found by id exactly when its id is among the listed ids. */
  lemma LookupAgreesWithListing(models: seq<LmModel>, id: string)
    ensures GetModelById(models, id).Some? <==> id in GetAvailableModelIds(models).ids
  {
    var ids := GetAvailableModelIds(models).ids;
    if id in ids {
      var i :| 0 <= i < |ids| && ids[i] == id;
      assert models[i].id == id;
    }
  }

  // ---------------------------------------------------------------------------
  // Chat

  /** What the chat loop yields: the values of the text parts, in order. */
  function TextParts(parts: seq<LmPart>): (tokens: seq<string>)
    ensures |tokens| <= |parts|
    ensures forall t :: t in tokens ==> TextPart(t) in parts
  {
    if |parts| == 0 then []
    else (if parts[0].TextPart? then [parts[0].value] else []) + TextParts(parts[1..])
  }

  /** The text of a stream delivered in two pieces is the text of the pieces, in order. */
  lemma {:induction false} TextPartsAppend(a: seq<LmPart>, b: seq<LmPart>)
    ensures TextParts(a + b) == TextParts(a) + TextParts(b)
  {
    if |a| == 0 {
      assert a + b == b;
    } else {
      assert (a + b)[0] == a[0];
      assert (a + b)[1..] == a[1..] + b;
      TextPartsAppend(a[1..], b);
    }
  }

  /** Only non-text parts: nothing is yielded. */
  lemma {:induction false} TextPartsOfOthers(parts: seq<LmPart>)
    requires forall i :: 0 <= i < |parts| ==> parts[i].OtherPart?
    ensures TextParts(parts) == []
  {
    if |parts| > 0 {
      TextPartsOfOthers(parts[1..]);
    }
  }

  /** A request sent to a model: its id and the user messages. */
  datatype LmRequest = LmRequest(modelId: string, userMessages: seq<string>)

  /** The outcome of one `chatCopilot` generator run. */
  datatype ChatRun = ChatRun(tokens: seq<string>, service: Service, request: Option<LmRequest>, notices: seq<Notice>)

  /**
   * `chatCopilot(fileContent, model)`. `listing` and `lookup` are the two calls of
   * `selectChatModels` (for the id check and for `getModelById`), `response` the stream
   * of `sendRequest` (not started when it rejects); `scope` is the provider's list.
   */
  function ChatCopilot(s: Service, fileContent: string, model: string, scope: seq<ReviewScope.ReviewTarget>,
                       listing: Attempt<seq<LmModel>>, lookup: Attempt<seq<LmModel>>, response: Stream<LmPart>): (r: ChatRun)
    ensures s.isProcessing ==> r == ChatRun([], s, None, [Notice(Warning, ReviewPrompt.BusyText)])
    ensures r.service.providerId == s.providerId
    ensures !s.isProcessing ==> !r.service.isProcessing
    ensures r.request.Some? <==>
              && !s.isProcessing
              && listing.Ok? && model in GetAvailableModelIds(listing.value).ids
              && lookup.Ok? && GetModelById(lookup.value, model).Some?
    ensures r.request.Some? ==>
              r.request.value == LmRequest(model, [ReviewPrompt.Build(fileContent, ReviewScope.CheckedLabels(scope))])
    ensures r.tokens == (if r.request.Some? && response.started then TextParts(response.parts) else [])
    ensures Notice(Info, CompletedText) in r.notices <==> r.request.Some? && response.started && !response.breaks
    ensures !s.isProcessing
            && (|| listing.Threw?
                || (listing.Ok? && model in GetAvailableModelIds(listing.value).ids && lookup.Threw?)
                || (r.request.Some? && (!response.started || response.breaks))) ==>
              |r.notices| > 0 && r.notices[|r.notices| - 1] == Notice(Error, ErrorText)
    ensures !s.isProcessing && listing.Ok? && model !in GetAvailableModelIds(listing.value).ids ==>
              r.notices == GetAvailableModelIds(listing.value).notices + [Notice(Error, ReviewPrompt.UnavailableText(model))]
    ensures !s.isProcessing && listing.Ok? && lookup.Ok? && r.request.None? ==>
              |r.notices| > 0 && r.notices[|r.notices| - 1] == Notice(Error, ReviewPrompt.UnavailableText(model))
  {
    if s.isProcessing then ChatRun([], s, None, [Notice(Warning, ReviewPrompt.BusyText)])
    else
      var idle := s.(isProcessing := false);
      match listing
      case Threw => ChatRun([], idle, None, [Notice(Error, ErrorText)])
      case Ok(models) =>
        var l := GetAvailableModelIds(models);
        if model !in l.ids then ChatRun([], idle, None, l.notices + [Notice(Error, ReviewPrompt.UnavailableText(model))])
        else
          var chatting := l.notices + [Notice(Info, ReviewPrompt.ChattingText(model))];
          assert CompletedText != ReviewPrompt.ChattingText(model) by {
            assert CompletedText[0] != ReviewPrompt.ChattingText(model)[|model|];
          }
          assert Notice(Info, CompletedText) !in chatting;
          match lookup
          case Threw => ChatRun([], idle, None, chatting + [Notice(Error, ErrorText)])
          case Ok(all) =>
            match GetModelById(all, model)
            case None => ChatRun([], idle, None, chatting + [Notice(Error, ReviewPrompt.UnavailableText(model))])
            case Some(m) =>
              Exchange(idle, chatting, LmRequest(m.id, [ReviewPrompt.Build(fileContent, ReviewScope.CheckedLabels(scope))]), response)
  }

  /** Sending the request and relaying the stream; any rejection is caught and reported. */
  function Exchange(idle: Service, chatting: seq<Notice>, request: LmRequest, response: Stream<LmPart>): (r: ChatRun)
    requires Notice(Info, CompletedText) !in chatting
    ensures r.service == idle && r.request == Some(request)
    ensures r.tokens == (if response.started then TextParts(response.parts) else [])
    ensures Notice(Info, CompletedText) in r.notices <==> response.started && !response.breaks
    ensures !response.started || response.breaks ==>
              |r.notices| > 0 && r.notices[|r.notices| - 1] == Notice(Error, ErrorText)
  {
    var last := if response.started && !response.breaks then Notice(Info, CompletedText) else Notice(Error, ErrorText);
    var notices := chatting + [last];
    assert notices[|notices| - 1] == last;
    ChatRun(if response.started then TextParts(response.parts) else [], idle, Some(request), notices)
  }

  /** A chat never leaves the instance busy, so the next one is served whatever happened before. */
  lemma ChatNeverSticks(s: Service, fileContent: string, model: string, scope: seq<ReviewScope.ReviewTarget>,
                        listing: Attempt<seq<LmModel>>, lookup: Attempt<seq<LmModel>>, response: Stream<LmPart>,
                        fileContent': string, m: LmModel, response': Stream<LmPart>)
    requires !s.isProcessing && response'.started
    ensures var r := ChatCopilot(s, fileContent, model, scope, listing, lookup, response);
            var r' := ChatCopilot(r.service, fileContent', m.id, scope, Ok([m]), Ok([m]), response');
            r'.request.Some? && r'.tokens == TextParts(response'.parts)
  {
    assert GetAvailableModelIds([m]).ids == [m.id];
    assert GetModelById([m], m.id) == Some(m);
  }
}

=== FILE: extension.dfy ===
/**
 * The extension's wiring (`extension.ts`): activation seeds the model list, the open
 * command toggles the panel and readies the local server only when it opened one, and
 * the save handler relays a review of the saved file to the panel, clearing it first
 * and then sending the text accumulated so far after every token.
 */
module Extension {
  import opened Common
  import Strings
  import Readiness
  import LegacyOllama
  import LegacyModelProvider
  import PanelService
  import OllamaApi

  /** An open document; two documents are the same object exactly when their ids agree. */
  datatype Document = Document(id: nat, text: string)

  /**
   * The extension's state: the module variable `Panel`, how many panels were created,
   * the model list, and the flag of the chat generator.
   */
  datatype ExtState = ExtState(
    panel: Option<PanelService.Panel>,
    panelsCreated: nat,
    models: LegacyModelProvider.ModelView,
    chat: LegacyOllama.ModuleState)

  /** `activate`: the model list is seeded from the models fetched at activation; no panel yet. */
  function Activate(available: seq<string>, configuredModel: Option<string>): (st: ExtState)
    ensures st.panel.None? && !st.chat.isProcessing
    ensures LegacyModelProvider.GetChildren(st.models) == available
    ensures configuredModel.GetOr("") == "" && |available| > 0 ==>
              LegacyModelProvider.GetSelectedModel(st.models) == available[0]
  {
    ExtState(None, 0, LegacyModelProvider.New(available, configuredModel), LegacyOllama.ModuleState(false))
  }

  /** The panel's `onDispose` callback: forget the panel. */
  function OnPanelDisposed(st: ExtState): (r: ExtState)
    ensures r.panel.None? && r.chat == st.chat && r.models == st.models
  {
    st.(panel := None)
  }

  /**
   * The `preview.open` command: toggle the panel; when that opened a new one, run the
   * readiness procedure (whose answer is then ignored). Closing runs nothing.
   */
  method PreviewOpen(st: ExtState, draws: seq<nat>, first: Readiness.FetchResult, platform: string,
                     exec: string -> bool, second: Readiness.FetchResult)
    returns (st': ExtState, readiness: Option<Readiness.Check>)
    requires |draws| == 32
    requires forall i :: 0 <= i < |draws| ==> draws[i] < 62
    ensures st.panel.Some? ==> st'.panel.None? && readiness.None?
    ensures st.panel.None? ==> st'.panel.Some? && st'.panel.value.serial == st.panelsCreated
    ensures st.panel.None? ==> readiness == Some(LegacyOllama.SetupOllama(first, platform, exec, second))
    ensures st'.models == st.models && st'.chat == st.chat
  {
    var panel, disposed := PanelService.SetupPanel(st.panel, st.panelsCreated, draws);
    st' := st;
    if disposed.Some? {
      st' := OnPanelDisposed(st');
    }
    st' := st'.(panel := panel, panelsCreated := if panel.Some? then st.panelsCreated + 1 else st.panelsCreated);
    if panel.None? {
      return st', None;
    }
    readiness := Some(LegacyOllama.SetupOllama(first, platform, exec, second));
  }

  /** Opening twice closes again, and the second press readies nothing. */
  method ToggleTwice(st: ExtState, draws: seq<nat>, first: Readiness.FetchResult, platform: string,
                     exec: string -> bool, second: Readiness.FetchResult)
    returns (st'': ExtState, wasOpened: bool, again: Option<Readiness.Check>)
    requires st.panel.None?
    requires |draws| == 32
    requires forall i :: 0 <= i < |draws| ==> draws[i] < 62
    ensures wasOpened && st''.panel.None? && again.None?
  {
    var st', r := PreviewOpen(st, draws, first, platform, exec, second);
    wasOpened := st'.panel.Some?;
    st'', again := PreviewOpen(st', draws, first, platform, exec, second);
  }

  // ---------------------------------------------------------------------------
  // Relaying a review

  function Clear(): PanelService.Message {
    PanelService.Message(PanelService.ClearCommand, None)
  }

  function Update(text: string): PanelService.Message {
    PanelService.Message(PanelService.UpdateCommand, Some(text))
  }

  /**
   * `posted` is the relay of `tokens`: one clear, then one update per token whose
   * payload is the concatenation of the tokens received so far.
   */
  predicate RelayOf(tokens: seq<string>, posted: seq<PanelService.Message>) {
    && |posted| == |tokens| + 1
    && posted[0] == Clear()
    && forall k :: 1 <= k < |posted| ==> posted[k] == Update(Strings.Concat(tokens[..k]))
  }

  /** The relay loop of the save handler. */
  method Relay(tokens: seq<string>) returns (posted: seq<PanelService.Message>)
    ensures RelayOf(tokens, posted)
  {
    posted := [Clear()];
    var accumulated := "";
    var k := 0;
    while k < |tokens|
      invariant 0 <= k <= |tokens|
      invariant accumulated == Strings.Concat(tokens[..k])
      invariant |posted| == k + 1 && posted[0] == Clear()
      invariant forall j :: 1 <= j < |posted| ==> posted[j] == Update(Strings.Concat(tokens[..j]))
    {
      assert tokens[..k + 1][..k] == tokens[..k];
      accumulated := accumulated + tokens[k];
      posted := posted + [Update(accumulated)];
      k := k + 1;
    }
  }

  /** Each update's payload extends the previous one: the review only ever grows. */
  lemma RelayPayloadsGrow(tokens: seq<string>, posted: seq<PanelService.Message>, j: nat, k: nat)
    requires RelayOf(tokens, posted)
    requires 1 <= j <= k < |posted|
    ensures posted[j].content.Some? && posted[k].content.Some?
    ensures Strings.IsPrefix(posted[j].content.value, posted[k].content.value)
  {
    Strings.ConcatPrefix(tokens, j, k);
  }

  /**
   * Whatever the panel showed, after handling the relay it shows the rendering of the
   * whole review, or nothing when no token came.
   */
  lemma RelayShowsWholeReview(tokens: seq<string>, posted: seq<PanelService.Message>, before: string,
                              parse: Option<string> -> string)
    requires RelayOf(tokens, posted)
    ensures PanelService.Replay(before, posted, parse) ==
              if tokens == [] then "" else parse(Some(Strings.Concat(tokens)))
  {
    var n := |tokens|;
    if n == 0 {
      assert posted[|posted| - 1] == Clear();
    } else {
      assert posted[n] == Update(Strings.Concat(tokens[..n]));
      assert tokens[..n] == tokens;
    }
    PanelService.LastMessageWins(before, posted, parse);
  }

  /**
   * The save handler: with no panel, or when the saved document is not the one in the
   * active editor, nothing happens; otherwise the file is reviewed with the local chat
   * generator and its tokens are relayed to the panel.
   */
  method OnSave(st: ExtState, saved: Document, active: Option<Document>, stream: Stream<OllamaApi.Part>)
    returns (st': ExtState, posted: seq<PanelService.Message>)
    ensures st.panel.None? || active != Some(saved) ==> st' == st && posted == []
    ensures st.panel.Some? && active == Some(saved) ==>
              var r := LegacyOllama.ChatOllamaReleasing(st.chat, saved.text, stream);
              RelayOf(r.tokens, posted) && st' == st.(chat := r.state)
  {
    if st.panel.None? {
      return st, [];
    }
    if active != Some(saved) {
      return st, [];
    }
    var r := LegacyOllama.ChatOllamaReleasing(st.chat, saved.text, stream);
    posted := Relay(r.tokens);
    st' := st.(chat := r.state);
  }

  /**
   * Two saves of the active document in a row: whatever happened to the first review
   * (a rejected request, a stream without `done`), the second is reviewed and relayed.
   * With the as-written generator the second save would relay nothing
   * (`LegacyOllama.StuckFlagSilencesLaterCalls`).
   */
  method SaveTwice(st: ExtState, doc: Document, first: Stream<OllamaApi.Part>, second: Stream<OllamaApi.Part>)
    returns (st': ExtState, posted: seq<PanelService.Message>, posted': seq<PanelService.Message>)
    requires st.panel.Some? && !st.chat.isProcessing
    ensures RelayOf(if first.started then OllamaApi.UntilDone(first.parts) else [], posted)
    ensures RelayOf(if second.started then OllamaApi.UntilDone(second.parts) else [], posted')
    ensures !st'.chat.isProcessing && st'.panel == st.panel
  {
    var mid;
    mid, posted := OnSave(st, doc, Some(doc), first);
    st', posted' := OnSave(mid, doc, Some(doc), second);
  }
}

=== FILE: legacy_model_provider.dfy ===
/**
 * The first-generation model list (`review-model-provider.ts`): built once from the
 * models fetched at activation, with the configured model, else the first model,
 * selected; selections are written back to the model setting.
 */
module LegacyModelProvider {
  import opened Common
  import Utils
  import Radio

  const SelectTitle := "Select Model"
  const SelectCommand := "radio.select"

  /** The provider's state; the list is fixed at construction. */
  datatype ModelView = ModelView(selected: string, models: seq<string>)

  /**
   * The constructor: the configured model when non-empty (listed or not), else the
   * first listed model, else none.
   */
  function New(models: seq<string>, configuredModel: Option<string>): (v: ModelView)
    ensures v.models == models
    ensures configuredModel.Some? && configuredModel.value != "" ==> v.selected == configuredModel.value
    ensures configuredModel.GetOr("") == "" && |models| > 0 ==> v.selected == models[0]
    ensures configuredModel.GetOr("") == "" && |models| == 0 ==> v.selected == ""
  {
    var defaultModel := configuredModel.GetOr("");
    if defaultModel != "" then ModelView(defaultModel, models)
    else if |models| > 0 then ModelView(models[0], models)
    else ModelView("", models)
  }

  /** Without a configured model, the selection is always one of the listed models when any exist. */
  lemma NewSelectsListedModel(models: seq<string>, configuredModel: Option<string>)
    requires configuredModel.GetOr("") == ""
    ensures |models| > 0 <==> New(models, configuredModel).selected in models
  {
    var v := New(models, configuredModel);
    if v.selected in models {
      assert |models| > 0;
    }
  }

  function GetSelectedModel(v: ModelView): string {
    v.selected
  }

  /** `getChildren()`: the listed models, fixed at construction. */
  function GetChildren(v: ModelView): seq<string> {
    v.models
  }

  function GetTreeItem(v: ModelView, element: string): (t: Radio.TreeItem)
    ensures t.icon == Radio.CircleFilled <==> element == GetSelectedModel(v)
    ensures t.command == SelectCommand && t.argument == element
  {
    Radio.Item(element, v.selected, SelectTitle, SelectCommand)
  }

  /**
   * `selectModel(model)`: select it and persist it under the model setting; the private
   * `getConfigurationTarget` applies the same precedence as the shared helper.
   */
  function SelectModel(v: ModelView, model: string, inspect: Utils.Setting -> Option<Utils.Inspection>): (r: (ModelView, Utils.ConfigWrite))
    ensures r.0.selected == model && r.0.models == v.models
    ensures r.1.setting == Utils.ModelSetting && r.1.value == model
    ensures r.1.target == Utils.TargetFor(inspect(Utils.ModelSetting))
  {
    (v.(selected := model), Utils.ConfigWrite(Utils.ModelSetting, model, Utils.GetConfigurationTarget(inspect)))
  }

  /**
   * Selecting a listed model fills exactly its item when the names are distinct, and the
   * written scope keeps the value: reading the setting back gives the model.
   */
  lemma SelectionIsShownAndStored(v: ModelView, k: nat, inspect: Utils.Setting -> Option<Utils.Inspection>)
    requires Radio.Distinct(v.models) && k < |v.models|
    ensures var (w, write) := SelectModel(v, v.models[k], inspect);
            && Radio.Filled(w.models, w.selected) == {k}
            && Utils.TargetFor(Some(Utils.Store(inspect(Utils.ModelSetting), write.target, write.value))) == write.target
  {
    var (w, write) := SelectModel(v, v.models[k], inspect);
    Radio.FilledIsTheSelection(w.models, w.selected);
    Utils.TargetIsStable(inspect(Utils.ModelSetting), write.value);
  }
}

=== FILE: legacy_ollama.dfy ===
/**
 * The first generation of the local backend (module-level functions): the same
 * readiness procedure against the fixed local endpoint, and a chat generator whose
 * busy flag is one module variable shared by every caller. That flag is cleared only
 * when a `done` part arrives (see `StuckFlagSilencesLaterCalls`); `ChatOllamaReleasing`
 * is the corrected generator the rest of the model uses.
 */
module LegacyOllama {
  import opened Common
  import Strings
  import Readiness
  import OllamaApi

  const ChatModel := "gemma3:latest"
  const RequestSuffix := "について日本語でコードレビューをお願いいたします"
  const ChattingText := "Ollamaとチャット中..."
  const CompletedText := "Ollamaとのチャットが完了しました"
  const NotInstalledLine := "Ollamaがインストールされていません\n"

  /** The diagnostic `setupOllama` adds when the executable is missing. */
  function SetupFailedText(): string {
    NotInstalledLine + Readiness.DownloadUrl + " からOllamaをインストールしてください"
  }

  /** The diagnostic names the download page. */
  lemma SetupFailedNamesDownloadUrl()
    ensures Strings.Contains(SetupFailedText(), Readiness.DownloadUrl)
  {
    var t := SetupFailedText();
    var u := Readiness.DownloadUrl;
    var k := |NotInstalledLine|;
    assert t[k..k + |u|] == u;
    assert Strings.OccursAt(u, t, k);
  }

  /** The look-up of `checkOllamaInstalled`, followed by the diagnostic `setupOllama` shows on failure. */
  function InstallCheckThenReport(platform: string, exec: string -> bool): (r: Readiness.Check)
    ensures r.ok == exec(Readiness.InstallCheckCommand(platform))
    ensures !r.ok ==> |r.effects| >= 1 && r.effects[|r.effects| - 1] == Readiness.Shown(Notice(Error, SetupFailedText()))
    ensures Readiness.Observations(r.effects) == [r.ok] && Readiness.Launches(r.effects) == 0
    ensures Readiness.Milestones(r.effects) == [Readiness.Executed(Readiness.InstallCheckCommand(platform), r.ok)]
  {
    var c := Readiness.InstallCheck(platform, exec);
    if c.ok then c
    else
      var tail := [Readiness.Shown(Notice(Error, SetupFailedText()))];
      Readiness.ObservationsAppend(c.effects, tail);
      Readiness.Check(false, c.effects + tail)
  }

  /** `setupOllama()`: the readiness procedure against the fixed local endpoint. */
  function SetupOllama(first: Readiness.FetchResult, platform: string, exec: string -> bool,
                       second: Readiness.FetchResult): (r: Readiness.Check)
    ensures |r.effects| >= 1 && r.effects[0] == Readiness.Fetched(Readiness.LocalEndpoint, first == Readiness.Responded(true))
    ensures first == Readiness.Responded(true) ==> r.ok && Readiness.Launches(r.effects) == 0
    ensures first != Readiness.Responded(true) && !exec(Readiness.InstallCheckCommand(platform)) ==>
              !r.ok && Readiness.Launches(r.effects) == 0
    ensures first != Readiness.Responded(true) && exec(Readiness.InstallCheckCommand(platform)) ==>
              && (r.ok <==> second == Readiness.Responded(true))
              && Readiness.Launches(r.effects) == 1
    ensures Readiness.Milestones(r.effects) ==
              Readiness.Timeline(Readiness.LocalEndpoint, first == Readiness.Responded(true), Readiness.InstallCheckCommand(platform),
                                 exec(Readiness.InstallCheckCommand(platform)), r.ok)
    ensures first == Readiness.Responded(true) ==>
              r.effects[|r.effects| - 1] == Readiness.Shown(Notice(Info, Readiness.AlreadyRunningText))
    ensures first != Readiness.Responded(true) && !exec(Readiness.InstallCheckCommand(platform)) ==>
              r.effects[|r.effects| - 1] == Readiness.Shown(Notice(Error, SetupFailedText()))
    ensures first != Readiness.Responded(true) && exec(Readiness.InstallCheckCommand(platform)) ==>
              r.effects[|r.effects| - 1] ==
                Readiness.Shown(if r.ok then Notice(Info, Readiness.StartedText) else Notice(Error, Readiness.StartFailedText))
  {
    var install := InstallCheckThenReport(platform, exec);
    var r := Readiness.CheckReady(Readiness.LocalEndpoint, first, install, second);
    Readiness.CheckReadyReports(Readiness.LocalEndpoint, first, install, second);
    Readiness.CheckReadyTimeline(Readiness.LocalEndpoint, first, Readiness.InstallCheckCommand(platform), install, second);
    r
  }

  /** The legacy readiness follows the same life cycle as the current one. */
  lemma SetupFollowsLifecycle(first: Readiness.FetchResult, platform: string, exec: string -> bool,
                              second: Readiness.FetchResult)
    ensures var r := SetupOllama(first, platform, exec, second);
            var phase := Readiness.Run(Readiness.Unknown, Readiness.Observations(r.effects));
            Readiness.Terminal(phase) && (r.ok <==> phase == Readiness.Running)
  {
    Readiness.CheckReadyFollowsLifecycle(Readiness.LocalEndpoint, first, InstallCheckThenReport(platform, exec), second);
  }

  // ---------------------------------------------------------------------------
  // Chat

  /** The module variable `IsProcessing`: one flag for every caller in the extension host. */
  datatype ModuleState = ModuleState(isProcessing: bool)

  /** The fixed request: the file text followed by the request sentence, to the fixed model. */
  function LegacyRequest(fileContent: string): (q: OllamaApi.ChatRequest)
    ensures q.model == ChatModel && q.stream && q.keepAlive.None?
    ensures |q.messages| == 1 && q.messages[0].role == OllamaApi.User
    ensures Strings.IsPrefix(fileContent, q.messages[0].content)
    ensures q.messages[0].content[|fileContent|..] == RequestSuffix
  {
    OllamaApi.ChatRequest(ChatModel, [OllamaApi.ChatMessage(OllamaApi.User, fileContent + RequestSuffix)], true, None)
  }

  /** The outcome of one generator run. */
  datatype ChatRun = ChatRun(
    tokens: seq<string>,
    state: ModuleState,
    request: Option<OllamaApi.ChatRequest>,
    notices: seq<Notice>,
    raised: bool)

  /**
   * `chatOllama(fileContent)` as written: a busy call returns silently; otherwise the
   * flag is set, and only a `done` part clears it again. `stream.started` is false when
   * `ollama.chat` rejects.
   */
  function ChatOllama(st: ModuleState, fileContent: string, stream: Stream<OllamaApi.Part>): (r: ChatRun)
    ensures st.isProcessing ==> r == ChatRun([], st, None, [], false)
    ensures !st.isProcessing ==> r.request == Some(LegacyRequest(fileContent))
    ensures !st.isProcessing ==> r.tokens == (if stream.started then OllamaApi.UntilDone(stream.parts) else [])
    ensures !st.isProcessing ==>
              (!r.state.isProcessing <==> stream.started && OllamaApi.HasDone(stream.parts))
    ensures r.raised <==> !st.isProcessing && (!stream.started || (!OllamaApi.HasDone(stream.parts) && stream.breaks))
  {
    if st.isProcessing then ChatRun([], st, None, [], false)
    else
      var request := LegacyRequest(fileContent);
      var chatting := [Notice(Info, ChattingText)];
      if !stream.started then ChatRun([], ModuleState(true), Some(request), chatting, true)
      else
        var tokens := OllamaApi.UntilDone(stream.parts);
        OllamaApi.StopsAtDone(stream.parts);
        if |tokens| < |stream.parts| then
          ChatRun(tokens, ModuleState(false), Some(request), chatting + [Notice(Info, CompletedText)], false)
        else ChatRun(tokens, ModuleState(true), Some(request), chatting, stream.breaks)
  }

  /**
   * The flag sticks: once `ollama.chat` rejects (or the stream ends or throws without a
   * `done` part), every later call in the session yields nothing and sends nothing.
   */
  lemma StuckFlagSilencesLaterCalls(fileContent: string, first: Stream<OllamaApi.Part>,
                                    later: seq<(string, Stream<OllamaApi.Part>)>)
    requires !first.started || !OllamaApi.HasDone(first.parts)
    ensures var r := ChatOllama(ModuleState(false), fileContent, first);
            && r.state.isProcessing
            && forall i :: 0 <= i < |later| ==>
                 ChatOllama(r.state, later[i].0, later[i].1) == ChatRun([], r.state, None, [], false)
  {
  }

  /** A concrete instance: the request is rejected, and a second save gets no review at all. */
  lemma RejectedRequestBlocksNextReview()
    ensures var r := ChatOllama(ModuleState(false), "x", Stream(false, [], false));
            var r' := ChatOllama(r.state, "y", Stream(true, [OllamaApi.Part(false, "ok"), OllamaApi.Part(true, "")], false));
            r.raised && r'.request.None? && r'.tokens == []
  {
  }

  /**
   * The corrected generator: as written, except that the flag is released on every exit,
   * as the `finally` block of the class-based backend does.
   */
  function ChatOllamaReleasing(st: ModuleState, fileContent: string, stream: Stream<OllamaApi.Part>): (r: ChatRun)
    ensures st.isProcessing ==> r == ChatRun([], st, None, [], false)
    ensures !st.isProcessing ==> !r.state.isProcessing
    ensures r.tokens == ChatOllama(st, fileContent, stream).tokens
    ensures r.request == ChatOllama(st, fileContent, stream).request
    ensures r.raised == ChatOllama(st, fileContent, stream).raised
  {
    var w := ChatOllama(st, fileContent, stream);
    if st.isProcessing then w else w.(state := ModuleState(false))
  }

  /** With the release, an idle session stays serviceable: every call in a row is answered. */
  lemma {:induction false} ReleasingServesEveryCall(st: ModuleState, calls: seq<(string, Stream<OllamaApi.Part>)>)
    requires !st.isProcessing
    ensures var rs := RunAll(st, calls);
            |rs| == |calls|
            && forall i :: 0 <= i < |calls| ==> rs[i].request == Some(LegacyRequest(calls[i].0))
  {
    if |calls| > 0 {
      var r := ChatOllamaReleasing(st, calls[0].0, calls[0].1);
      ReleasingServesEveryCall(r.state, calls[1..]);
      var rs := RunAll(st, calls);
      assert rs == [r] + RunAll(r.state, calls[1..]);
      forall i | 0 <= i < |calls|
        ensures rs[i].request == Some(LegacyRequest(calls[i].0))
      {
        if i > 0 {
          assert rs[i] == RunAll(r.state, calls[1..])[i - 1];
          assert calls[1..][i - 1] == calls[i];
        }
      }
    }
  }

  /** A session of saves handled in turn by the corrected generator, threading the module flag. */
  function RunAll(st: ModuleState, calls: seq<(string, Stream<OllamaApi.Part>)>): seq<ChatRun>
    decreases |calls|
  {
    if |calls| == 0 then []
    else
      var r := ChatOllamaReleasing(st, calls[0].0, calls[0].1);
      [r] + RunAll(r.state, calls[1..])
  }
}

=== FILE: model_provider.dfy ===
/**
 * The model list of the sidebar (`view-container/review-model-provider.ts`): starts
 * empty with the configured default model selected, receives its list from the active
 * backend, and writes a selection back to the configuration.
 */
module ModelProvider {
  import opened Common
  import Utils
  import Radio

  const SelectTitle := "Select Model"
  /** The command id the file imports as `SELECT_MODEL_COMMAND`; no file of the repository defines its value. */
  const SelectCommand := "select.model"

  /** The provider's state: the selected model name ("" for none) and the listed models. */
  datatype ModelView = ModelView(selected: string, models: seq<string>)

  /** The constructor: the configured default model when it is non-empty, else none; no models yet. */
  function New(configuredDefault: Option<string>): (v: ModelView)
    ensures v.models == []
    ensures configuredDefault.Some? ==> v.selected == configuredDefault.value
    ensures configuredDefault.None? ==> v.selected == ""
  {
    var defaultModel := configuredDefault.GetOr("");
    if defaultModel != "" then ModelView(defaultModel, []) else ModelView("", [])
  }

  function GetSelectedModel(v: ModelView): string {
    v.selected
  }

  /** `getChildren()`: the listed models, as the backend last pushed them. */
  function GetChildren(v: ModelView): seq<string> {
    v.models
  }

  function GetTreeItem(v: ModelView, element: string): (t: Radio.TreeItem)
    ensures t.icon == Radio.CircleFilled <==> element == GetSelectedModel(v)
    ensures t.command == SelectCommand && t.argument == element
  {
    Radio.Item(element, v.selected, SelectTitle, SelectCommand)
  }

  /**
   * `selectModel(model)`: select it, whether listed or not, and persist it under the
   * default-model setting at the scope chosen from the model setting's inspection.
   */
  function SelectModel(v: ModelView, model: string, inspect: Utils.Setting -> Option<Utils.Inspection>): (r: (ModelView, Utils.ConfigWrite))
    ensures r.0.selected == model && r.0.models == v.models
    ensures r.1 == Utils.ConfigWrite(Utils.DefaultModel, model, Utils.GetConfigurationTarget(inspect))
  {
    (v.(selected := model), Utils.ConfigWrite(Utils.DefaultModel, model, Utils.GetConfigurationTarget(inspect)))
  }

  /** `setupModels(models)`: replace the list; pick its first model only if nothing is selected. */
  function SetupModels(v: ModelView, models: seq<string>): (r: ModelView)
    ensures r.models == models
    ensures v.selected != "" ==> r.selected == v.selected
    ensures v.selected == "" && |models| > 0 ==> r.selected == models[0]
    ensures v.selected == "" && |models| == 0 ==> r.selected == ""
  {
    if v.selected == "" && |models| > 0 then ModelView(models[0], models) else ModelView(v.selected, models)
  }

  /**
   * Pushing a list twice is the same as pushing it once, and a list whose first name
   * is non-empty always leaves some model selected, one of the list's unless the user
   * had chosen before.
   */
  lemma SetupModelsSettles(v: ModelView, models: seq<string>)
    ensures SetupModels(SetupModels(v, models), models) == SetupModels(v, models)
    ensures |models| > 0 && models[0] != "" ==> SetupModels(v, models).selected != ""
    ensures v.selected == "" ==> (SetupModels(v, models).selected in models || models == [])
  {
  }

  /** A user's selection survives any later list from a backend. */
  lemma SelectionSurvivesSetup(v: ModelView, model: string, inspect: Utils.Setting -> Option<Utils.Inspection>,
                               models: seq<string>)
    requires model != ""
    ensures GetSelectedModel(SetupModels(SelectModel(v, model, inspect).0, models)) == model
  {
  }
}

=== FILE: ollama_api.dfy ===
/** The slice of the `ollama` client library the backends use: chat requests and streamed parts. */
module OllamaApi {
  import opened Common

  /** One streamed chat response part: its `done` flag and `message.content`. */
  datatype Part = Part(done: bool, content: string)

  datatype Role = System | User

  datatype ChatMessage = ChatMessage(role: Role, content: string)

  /** The argument of `ollama.chat`; `keepAlive` is `keep_alive` when given. */
  datatype ChatRequest = ChatRequest(model: string, messages: seq<ChatMessage>, stream: bool, keepAlive: Option<int>)

  /** Some part of the stream signals completion. */
  predicate HasDone(parts: seq<Part>) {
    exists i :: 0 <= i < |parts| && parts[i].done
  }

  /**
   * The stream loop that yields each part's message content and returns at the first
   * `done` part: the contents of the parts before it, in order.
   */
  function UntilDone(parts: seq<Part>): (tokens: seq<string>)
    ensures |tokens| <= |parts|
    ensures forall i :: 0 <= i < |tokens| ==> !parts[i].done && tokens[i] == parts[i].content
    ensures |tokens| < |parts| ==> parts[|tokens|].done
  {
    if |parts| == 0 || parts[0].done then []
    else [parts[0].content] + UntilDone(parts[1..])
  }

  /** The loop stops early exactly when some part is `done`. */
  lemma StopsAtDone(parts: seq<Part>)
    ensures |UntilDone(parts)| < |parts| <==> HasDone(parts)
  {
    var n := |UntilDone(parts)|;
    if n < |parts| {
      assert parts[n].done;
    }
  }
}

=== FILE: panel_service.dfy ===
/**
 * The review panel (`panel-service.ts`): toggled by the open command, created with a
 * fresh script nonce, and fed by two webview messages, one that replaces the rendered
 * review and one that clears it. The HTML page itself is not modelled; only its
 * message handler is, with the Markdown renderer as an uninterpreted function.
 */
module PanelService {
  import opened Common
  import Utils

  const ViewType := "preview"
  const Title := "Preview"
  const UpdateCommand := "updateContent"
  const ClearCommand := "clearContent"

  /** A created webview panel: the serial of its creation and the nonce its scripts carry. */
  datatype Panel = Panel(serial: nat, nonce: string)

  /**
   * `setupPanel(existing, context, onDispose)`: an existing panel is disposed (which
   * runs its `onDispose` callback) and nothing is returned; otherwise a new panel is
   * created and returned. `draws` are the random indices its nonce is drawn from.
   */
  method SetupPanel(existing: Option<Panel>, serial: nat, draws: seq<nat>) returns (panel: Option<Panel>, disposed: Option<Panel>)
    requires |draws| == Utils.NonceLength
    requires forall i :: 0 <= i < |draws| ==> draws[i] < |Utils.Possible()|
    ensures existing.Some? ==> panel.None? && disposed == existing
    ensures existing.None? ==> disposed.None? && panel.Some? && panel.value.serial == serial
    ensures panel.Some? ==> |panel.value.nonce| == Utils.NonceLength
    ensures panel.Some? ==> forall i :: 0 <= i < |panel.value.nonce| ==> Utils.IsAlphanumeric(panel.value.nonce[i])
    ensures panel.Some? ==> forall i :: 0 <= i < Utils.NonceLength ==> panel.value.nonce[i] == Utils.Possible()[draws[i]]
  {
    if existing.Some? {
      return None, existing;
    }
    var nonce := Utils.GetNonce(draws);
    return Some(Panel(serial, nonce)), None;
  }

  /** A message posted to the webview: `{ command, content }`, the content possibly absent. */
  datatype Message = Message(command: string, content: Option<string>)

  /**
   * The page's message listener: `updateContent` replaces the whole output with the
   * rendering of the content, `clearContent` empties it, any other command is ignored.
   */
  function Handle(output: string, m: Message, parse: Option<string> -> string): (r: string)
    ensures m.command == UpdateCommand ==> r == parse(m.content)
    ensures m.command == ClearCommand ==> r == ""
    ensures m.command != UpdateCommand && m.command != ClearCommand ==> r == output
  {
    if m.command == UpdateCommand then parse(m.content)
    else if m.command == ClearCommand then ""
    else output
  }

  /** The output after the page has handled `messages` in order. */
  function Replay(output: string, messages: seq<Message>, parse: Option<string> -> string): string
    decreases |messages|
  {
    if |messages| == 0 then output else Replay(Handle(output, messages[0], parse), messages[1..], parse)
  }

  predicate Understood(m: Message) {
    m.command == UpdateCommand || m.command == ClearCommand
  }

  /**
   * Both understood messages overwrite the output entirely, so after a run of them the
   * page shows what the last one says, whatever it showed before.
   */
  lemma {:induction false} LastMessageWins(output: string, messages: seq<Message>, parse: Option<string> -> string)
    requires |messages| > 0 && Understood(messages[|messages| - 1])
    ensures Replay(output, messages, parse) == Handle("", messages[|messages| - 1], parse)
    decreases |messages|
  {
    if |messages| > 1 {
      LastMessageWins(Handle(output, messages[0], parse), messages[1..], parse);
    }
  }

  /** Messages with other commands leave the page as it was. */
  lemma {:induction false} OtherCommandsIgnored(output: string, messages: seq<Message>, parse: Option<string> -> string)
    requires forall i :: 0 <= i < |messages| ==> !Understood(messages[i])
    ensures Replay(output, messages, parse) == output
  {
    if |messages| > 0 {
      OtherCommandsIgnored(output, messages[1..], parse);
    }
  }
}

=== FILE: radio.dfy ===
/**
 * The radio-button tree items the model and service lists share: an item is drawn
 * with a filled circle exactly when it is the selected element, and clicking it runs
 * the list's select command with the element as argument.
 */
module Radio {

  datatype Icon = CircleFilled | CircleOutline

  /** A tree item: its caption, icon, and the command (title, id, argument) it runs. */
  datatype TreeItem = TreeItem(caption: string, icon: Icon, title: string, command: string, argument: string)

  /** `getTreeItem(element)` of a radio list whose selection is `selected`. */
  function Item(element: string, selected: string, title: string, command: string): (t: TreeItem)
    ensures t.caption == element && t.argument == element
    ensures t.title == title && t.command == command
    ensures t.icon == CircleFilled <==> element == selected
  {
    TreeItem(element, if element == selected then CircleFilled else CircleOutline, title, command, element)
  }

  predicate Distinct(elements: seq<string>) {
    forall i, j :: 0 <= i < j < |elements| ==> elements[i] != elements[j]
  }

  /** The positions drawn filled. */
  function Filled(elements: seq<string>, selected: string): set<nat> {
    set i: nat | i < |elements| && Item(elements[i], selected, "", "").icon == CircleFilled
  }

  /**
   * A list of distinct elements shows exactly one filled item when the selection is
   * among them, at the selection's position, and none otherwise.
   */
  lemma FilledIsTheSelection(elements: seq<string>, selected: string)
    requires Distinct(elements)
    ensures selected !in elements ==> Filled(elements, selected) == {}
    ensures forall k :: 0 <= k < |elements| && elements[k] == selected ==> Filled(elements, selected) == {k}
  {
    forall k | 0 <= k < |elements| && elements[k] == selected
      ensures Filled(elements, selected) == {k}
    {
      forall i | i in Filled(elements, selected) ensures i == k {
        assert elements[i] == elements[k];
      }
    }
  }
}

=== FILE: readiness.dfy ===
/**
 * The readiness check of the local model server, shared by both generations of the
 * Ollama backend: probe the endpoint; on failure check that the `ollama` executable is
 * on the search path; if it is, start it once in a terminal, wait, and probe once more.
 * The life cycle is stated independently as a small phase machine.
 */
module Readiness {
  import opened Common

  /** The result of `fetch(endpoint)`: a response with its `ok` flag, or a rejection. */
  datatype FetchResult = Responded(ok: bool) | Unreachable

  /** What a readiness check does to the outside world, in order. */
  datatype Effect =
    | Fetched(url: string, up: bool)
    | Executed(command: string, succeeded: bool)
    | Launched(terminal: string, command: string)
    | Waited(ms: nat)
    | Shown(notice: Notice)

  /** A boolean answer together with the effects that produced it. */
  datatype Check = Check(ok: bool, effects: seq<Effect>)

  /** Where the local server listens unless configured otherwise. */
  const LocalEndpoint := "http://localhost:11434"
  /** Where the server can be downloaded. */
  const DownloadUrl := "https://ollama.com/download"

  const SettleMs: nat := 5000
  const TerminalName := "Ollama Server"
  const ServeCommand := "ollama serve"

  const NotStartedText := "Ollamaが起動していません"
  const AlreadyRunningText := "Ollamaが起動済みです"
  const StartingText := "Ollamaを起動中..."
  const StartedText := "Ollamaの起動に成功しました"
  const StartFailedText := "Ollamaの起動に失敗しました"
  const NotInstalledText := "Ollamaがインストールされていません"

  /** `checkOllamaStarted()`: up exactly when the fetch resolves with an OK response. */
  function Probe(url: string, response: FetchResult): (r: Check)
    ensures r.ok <==> response == Responded(true)
    ensures |r.effects| >= 1 && r.effects[0] == Fetched(url, r.ok)
    ensures |r.effects| == (if r.ok then 1 else 2)
    ensures !r.ok ==> r.effects[1] == Shown(Notice(Error, NotStartedText))
    ensures Observations(r.effects) == [r.ok] && Launches(r.effects) == 0
    ensures Milestones(r.effects) == [Fetched(url, r.ok)]
  {
    var up := response == Responded(true);
    var tail := if up then [] else [Shown(Notice(Error, NotStartedText))];
    ObservationsAppend([Fetched(url, up)], tail);
    Check(up, [Fetched(url, up)] + tail)
  }

  /** The search-path lookup command for the platform. */
  function InstallCheckCommand(platform: string): (cmd: string)
    ensures platform == "win32" ==> cmd == "where ollama"
    ensures platform != "win32" ==> cmd == "which ollama"
  {
    (if platform == "win32" then "where " else "which ") + "ollama"
  }

  /**
   * `checkOllamaInstalled()`: installed exactly when the lookup command succeeds;
   * `exec` answers whether a shell command exits successfully.
   */
  function InstallCheck(platform: string, exec: string -> bool): (r: Check)
    ensures r.ok == exec(InstallCheckCommand(platform))
    ensures |r.effects| >= 1 && r.effects[0] == Executed(InstallCheckCommand(platform), r.ok)
    ensures !r.ok ==> Shown(Notice(Error, NotInstalledText)) in r.effects
    ensures Observations(r.effects) == [r.ok] && Launches(r.effects) == 0
    ensures Milestones(r.effects) == [Executed(InstallCheckCommand(platform), r.ok)]
  {
    var cmd := InstallCheckCommand(platform);
    var ok := exec(cmd);
    var tail := if ok then [] else [Shown(Notice(Error, NotInstalledText))];
    ObservationsAppend([Executed(cmd, ok)], tail);
    assert ok || ([Executed(cmd, ok)] + tail)[1] == tail[0];
    Check(ok, [Executed(cmd, ok)] + tail)
  }

  /** `startOllama()`: run `ollama serve` in a new terminal. */
  function StartOllama(): (effects: seq<Effect>)
    ensures Launched(TerminalName, ServeCommand) in effects
    ensures Observations(effects) == [] && Launches(effects) == 1
    ensures Milestones(effects) == [Launched(TerminalName, ServeCommand)]
  {
    [Launched(TerminalName, ServeCommand)]
  }

  /** Announce the start, launch the server, wait the settling interval, probe once more and report. */
  function StartAndReprobe(url: string, second: FetchResult): (r: Check)
    ensures r.ok <==> second == Responded(true)
    ensures |r.effects| >= 5
    ensures r.effects[0] == Shown(Notice(Info, StartingText))
    ensures r.effects[1] == Launched(TerminalName, ServeCommand)
    ensures r.effects[2] == Waited(SettleMs)
    ensures r.effects[3] == Fetched(url, r.ok)
    ensures r.effects[|r.effects| - 1] == Shown(if r.ok then Notice(Info, StartedText) else Notice(Error, StartFailedText))
    ensures Milestones(r.effects) == [Launched(TerminalName, ServeCommand), Waited(SettleMs), Fetched(url, r.ok)]
    ensures Observations(r.effects) == [r.ok] && Launches(r.effects) == 1
  {
    var before := [Shown(Notice(Info, StartingText))] + StartOllama() + [Waited(SettleMs)];
    var reprobe := Probe(url, second);
    var report := Shown(if reprobe.ok then Notice(Info, StartedText) else Notice(Error, StartFailedText));
    StartSequence(url, reprobe.effects, reprobe.ok, report);
    var all := before + reprobe.effects + [report];
    assert all[3] == reprobe.effects[0];
    Check(reprobe.ok, all)
  }

  /** The measures of the start-up sequence: announce, launch, wait, the re-probe's effects, then a report. */
  lemma StartSequence(url: string, reprobe: seq<Effect>, ok: bool, report: Effect)
    requires report.Shown?
    requires Observations(reprobe) == [ok] && Launches(reprobe) == 0 && Milestones(reprobe) == [Fetched(url, ok)]
    ensures var all := [Shown(Notice(Info, StartingText))] + StartOllama() + [Waited(SettleMs)] + reprobe + [report];
            && Observations(all) == [ok] && Launches(all) == 1
            && Milestones(all) == [Launched(TerminalName, ServeCommand), Waited(SettleMs), Fetched(url, ok)]
  {
    var before := [Shown(Notice(Info, StartingText))] + StartOllama() + [Waited(SettleMs)];
    ObservationsAppend([Shown(Notice(Info, StartingText))], StartOllama());
    ObservationsAppend([Shown(Notice(Info, StartingText))] + StartOllama(), [Waited(SettleMs)]);
    ObservationsAppend(before, reprobe);
    ObservationsAppend(before + reprobe, [report]);
  }

  /**
   * The readiness procedure: probe; if the server answers, done; otherwise run the
   * given install check (whose effects are only incurred here) and, if it passes,
   * start once and re-probe once.
   */
  function CheckReady(url: string, first: FetchResult, install: Check, second: FetchResult): (r: Check)
    requires Observations(install.effects) == [install.ok] && Launches(install.effects) == 0
    ensures |r.effects| >= 1 && r.effects[0] == Fetched(url, first == Responded(true))
    ensures first == Responded(true) ==>
              && r.ok && Observations(r.effects) == [true] && Launches(r.effects) == 0
              && Milestones(r.effects) == [Fetched(url, true)]
    ensures first != Responded(true) && !install.ok ==>
              && !r.ok && Observations(r.effects) == [false, false] && Launches(r.effects) == 0
              && Milestones(r.effects) == [Fetched(url, false)] + Milestones(install.effects)
    ensures first != Responded(true) && install.ok ==>
              && (r.ok <==> second == Responded(true))
              && Observations(r.effects) == [false, true, r.ok]
              && Launches(r.effects) == 1
              && Milestones(r.effects) == [Fetched(url, false)] + Milestones(install.effects)
                                          + [Launched(TerminalName, ServeCommand), Waited(SettleMs), Fetched(url, r.ok)]
  {
    var probe := Probe(url, first);
    if probe.ok then
      var shown := [Shown(Notice(Info, AlreadyRunningText))];
      ObservationsAppend(probe.effects, shown);
      Check(true, probe.effects + shown)
    else
      ObservationsAppend(probe.effects, install.effects);
      if !install.ok then
        Check(false, probe.effects + install.effects)
      else
        var restart := StartAndReprobe(url, second);
        ObservationsAppend(probe.effects + install.effects, restart.effects);
        Check(restart.ok, probe.effects + install.effects + restart.effects)
  }

  /**
   * What the procedure reports: that the server already runs; or, after the probe's
   * not-started error, the install check's effects unchanged, ending with its diagnostic
   * when it fails, or else with the start-up report.
   */
  lemma CheckReadyReports(url: string, first: FetchResult, install: Check, second: FetchResult)
    requires Observations(install.effects) == [install.ok] && Launches(install.effects) == 0
    ensures var r := CheckReady(url, first, install, second);
            && (first == Responded(true) ==> r.effects[|r.effects| - 1] == Shown(Notice(Info, AlreadyRunningText)))
            && (first != Responded(true) ==>
                  && |r.effects| >= 2 + |install.effects|
                  && r.effects[1] == Shown(Notice(Error, NotStartedText))
                  && r.effects[2..2 + |install.effects|] == install.effects)
            && (first != Responded(true) && !install.ok && |install.effects| >= 1 ==>
                  r.effects[|r.effects| - 1] == install.effects[|install.effects| - 1])
            && (first != Responded(true) && install.ok ==>
                  r.effects[|r.effects| - 1] == Shown(if r.ok then Notice(Info, StartedText) else Notice(Error, StartFailedText)))
  {
    var r := CheckReady(url, first, install, second);
    var probe := Probe(url, first);
    if first != Responded(true) {
      var checked := probe.effects + install.effects;
      assert checked[2..] == install.effects;
      if install.ok {
        var restart := StartAndReprobe(url, second);
        assert r.effects == checked + restart.effects;
        assert r.effects[..|checked|] == checked;
        assert r.effects[|r.effects| - 1] == restart.effects[|restart.effects| - 1];
      } else {
        assert r.effects == checked;
      }
    }
  }

  /** When the install check is one look-up, the procedure's outside steps are its timeline. */
  lemma CheckReadyTimeline(url: string, first: FetchResult, lookup: string, install: Check, second: FetchResult)
    requires Observations(install.effects) == [install.ok] && Launches(install.effects) == 0
    requires Milestones(install.effects) == [Executed(lookup, install.ok)]
    ensures var r := CheckReady(url, first, install, second);
            Milestones(r.effects) == Timeline(url, first == Responded(true), lookup, install.ok, r.ok)
  {
  }

  /**
   * The steps of the procedure that reach outside the editor, in order: the probe; when
   * it fails, the look-up; when that succeeds, the launch, the settling wait and the re-probe.
   */
  function Timeline(url: string, up: bool, lookup: string, installed: bool, reprobed: bool): seq<Effect> {
    if up then [Fetched(url, true)] else [Fetched(url, false)] + RecoveryTimeline(url, lookup, installed, reprobed)
  }

  /** The outside steps after a failed probe: the look-up, then the launch, the wait and the re-probe if it succeeded. */
  function RecoveryTimeline(url: string, lookup: string, installed: bool, reprobed: bool): seq<Effect> {
    if !installed then [Executed(lookup, false)]
    else [Executed(lookup, true), Launched(TerminalName, ServeCommand), Waited(SettleMs), Fetched(url, reprobed)]
  }

  /**
   * The procedure follows the phase machine, reports ready exactly when the machine
   * ends running, and starts the server at most once.
   */
  lemma CheckReadyFollowsLifecycle(url: string, first: FetchResult, install: Check, second: FetchResult)
    requires Observations(install.effects) == [install.ok] && Launches(install.effects) == 0
    ensures var r := CheckReady(url, first, install, second);
            var phase := Run(Unknown, Observations(r.effects));
            Terminal(phase) && (r.ok <==> phase == Running) && Launches(r.effects) <= 1
  {
    var r := CheckReady(url, first, install, second);
    RunPaths(Observations(r.effects));
  }

  // ---------------------------------------------------------------------------
  // What a run of effects observed

  /** The answers of the probes and look-ups among `effects`, in order. */
  function Observations(effects: seq<Effect>): seq<bool> {
    if |effects| == 0 then []
    else
      var rest := Observations(effects[1..]);
      match effects[0]
      case Fetched(_, up) => [up] + rest
      case Executed(_, ok) => [ok] + rest
      case _ => rest
  }

  /** How many times `effects` start the server. */
  function Launches(effects: seq<Effect>): nat {
    if |effects| == 0 then 0
    else (if effects[0].Launched? then 1 else 0) + Launches(effects[1..])
  }

  /** The effects that reach outside the editor (probes, look-ups, launches, waits), in order; notices are dropped. */
  function Milestones(effects: seq<Effect>): seq<Effect> {
    if |effects| == 0 then []
    else (if effects[0].Shown? then [] else [effects[0]]) + Milestones(effects[1..])
  }

  /** Each measure of a run distributes over running one sequence of effects after another. */
  lemma ObservationsAppend(a: seq<Effect>, b: seq<Effect>)
    ensures Observations(a + b) == Observations(a) + Observations(b)
    ensures Launches(a + b) == Launches(a) + Launches(b)
    ensures Milestones(a + b) == Milestones(a) + Milestones(b)
  {
    ObservationsOfAppend(a, b);
    LaunchesOfAppend(a, b);
    MilestonesOfAppend(a, b);
  }

  lemma {:induction false} ObservationsOfAppend(a: seq<Effect>, b: seq<Effect>)
    ensures Observations(a + b) == Observations(a) + Observations(b)
  {
    if |a| == 0 {
      assert a + b == b;
    } else {
      assert (a + b)[0] == a[0];
      assert (a + b)[1..] == a[1..] + b;
      ObservationsOfAppend(a[1..], b);
    }
  }

  lemma {:induction false} LaunchesOfAppend(a: seq<Effect>, b: seq<Effect>)
    ensures Launches(a + b) == Launches(a) + Launches(b)
  {
    if |a| == 0 {
      assert a + b == b;
    } else {
      assert (a + b)[0] == a[0];
      assert (a + b)[1..] == a[1..] + b;
      LaunchesOfAppend(a[1..], b);
    }
  }

  lemma {:induction false} MilestonesOfAppend(a: seq<Effect>, b: seq<Effect>)
    ensures Milestones(a + b) == Milestones(a) + Milestones(b)
  {
    if |a| == 0 {
      assert a + b == b;
    } else {
      assert (a + b)[0] == a[0];
      assert (a + b)[1..] == a[1..] + b;
      MilestonesOfAppend(a[1..], b);
    }
  }

  // ---------------------------------------------------------------------------
  // The life cycle as a phase machine

  datatype Phase = Unknown | Running | NotRunning | NotInstalled | Starting | FailedToStart

  /** The phase after one observation (a probe or install-check answer). */
  function Step(p: Phase, observed: bool): Phase {
    match p
    case Unknown => if observed then Running else NotRunning
    case NotRunning => if observed then Starting else NotInstalled
    case Starting => if observed then Running else FailedToStart
    case _ => p
  }

  predicate Terminal(p: Phase) {
    p == Running || p == NotInstalled || p == FailedToStart
  }

  function Run(p: Phase, observations: seq<bool>): Phase
    decreases |observations|
  {
    if |observations| == 0 then p else Run(Step(p, observations[0]), observations[1..])
  }

  /**
   * The paths of the machine: it ends in a terminal phase after one observation
   * (running), two (not installed) or three (started, then running or failed).
   */
  lemma RunPaths(observations: seq<bool>)
    requires observations == [true] || observations == [false, false]
             || (|observations| == 3 && !observations[0] && observations[1])
    ensures Terminal(Run(Unknown, observations))
    ensures Run(Unknown, observations) == Running <==> observations[|observations| - 1]
  {
    var o := observations;
    if |o| == 3 {
      assert o[1..][0] == o[1] && o[1..][1..][0] == o[2] && o[1..][1..][1..] == [];
      assert Run(Unknown, o) == Run(NotRunning, o[1..]) == Run(Starting, o[1..][1..]);
      assert Run(Starting, o[1..][1..]) == Run(Step(Starting, o[2]), []);
    } else if |o| == 2 {
      assert o[1..][0] == o[1] && o[1..][1..] == [];
      assert Run(Unknown, o) == Run(NotRunning, o[1..]) == Run(NotInstalled, []);
    } else {
      assert o[1..] == [];
    }
  }
}

=== FILE: review_prompt.dfy ===
/**
 * The review request both chat backends send: the saved file fenced verbatim, then
 * fixed instructions naming the checked criteria joined with `、`.
 */
module ReviewPrompt {
  import Strings
  import ReviewScope

  const Delimiter: char := '、'

  /** Opens the code fence. */
  const Opening := "```\n"

  /** Closes the fence and introduces the criteria ("review the code above from the viewpoint of …"). */
  const Preamble := "\n```\n\nあなたは経験豊富なソフトウェアエンジニアです。\n上記コードを"

  /** The rest of the request: review only against those criteria, at most 500 characters, one line if nothing is wrong, answer in Japanese. */
  const Instructions :=
    "の観点からコードに問題があるかどうかレビューしてください。\n"
    + "観点以外について問題があったとしてもレビューは不要で余計な回答はさけてください。\n"
    + "必要に応じてコード修正例を出力してください。\n"
    + "回答が冗長にならないように気を付けてください。\n"
    + "問題がある場合は500文字以内で回答し、問題がなければ1行で回答してください。\n"
    + "日本語で回答してください。"

  /** The warning both backends show when a review is requested while one is running. */
  const BusyText := "処理中です。しばらくお待ちください。"

  /** The error shown when the selected model is not offered. */
  function UnavailableText(model: string): string {
    "選択された " + model + " モデルは利用できません"
  }

  /** The notice shown when the request is about to be sent. */
  function ChattingText(model: string): string {
    model + " モデルとチャット中..."
  }

  /** Where the criteria clause starts in the prompt for a file of `contentLength` characters. */
  function ClauseStart(contentLength: nat): nat {
    |Opening| + contentLength + |Preamble|
  }

  /** The template literal of `chat` / `chatCopilot`. */
  function Build(fileContent: string, labels: seq<string>): (prompt: string)
    ensures |prompt| == ClauseStart(|fileContent|) + |Strings.Join(labels, Delimiter)| + |Instructions|
    ensures prompt[..|Opening|] == Opening
    ensures prompt[|Opening|..|Opening| + |fileContent|] == fileContent
    ensures prompt[|Opening| + |fileContent|..ClauseStart(|fileContent|)] == Preamble
    ensures prompt[ClauseStart(|fileContent|)..|prompt| - |Instructions|] == Strings.Join(labels, Delimiter)
    ensures prompt[|prompt| - |Instructions|..] == Instructions
  {
    Pieces(Opening, fileContent, Preamble, Strings.Join(labels, Delimiter), Instructions);
    Opening + fileContent + Preamble + Strings.Join(labels, Delimiter) + Instructions
  }

  /** Each piece of a five-piece concatenation is found back at its offset. */
  lemma Pieces(a: string, b: string, c: string, d: string, e: string)
    ensures var s := a + b + c + d + e;
            && |s| == |a| + |b| + |c| + |d| + |e|
            && s[..|a|] == a
            && s[|a|..|a| + |b|] == b
            && s[|a| + |b|..|a| + |b| + |c|] == c
            && s[|a| + |b| + |c|..|s| - |e|] == d
            && s[|s| - |e|..] == e
  {
  }

  /** The file text read back from between the fences of a prompt. */
  function FencedContent(prompt: string, contentLength: nat): string
    requires |Opening| + contentLength <= |prompt|
  {
    prompt[|Opening|..|Opening| + contentLength]
  }

  /** The criteria read back from a prompt: the clause between the preamble and the instructions, split at `、`. */
  function CriteriaOf(prompt: string, contentLength: nat): seq<string>
    requires ClauseStart(contentLength) + |Instructions| <= |prompt|
  {
    Strings.Split(prompt[ClauseStart(contentLength)..|prompt| - |Instructions|], Delimiter)
  }

  /**
   * A prompt can be read back: the fenced text is the file verbatim, and the criteria
   * clause holds exactly the given labels in their order, so a criterion that was not
   * given is not named there.
   */
  lemma PromptRoundTrip(fileContent: string, labels: seq<string>)
    requires forall i :: 0 <= i < |labels| ==> labels[i] != "" && Delimiter !in labels[i]
    ensures FencedContent(Build(fileContent, labels), |fileContent|) == fileContent
    ensures CriteriaOf(Build(fileContent, labels), |fileContent|) == labels
  {
    Strings.SplitJoin(labels, Delimiter);
  }

  /** Every given label occurs in the prompt. */
  lemma {:induction false} PromptNamesEveryLabel(fileContent: string, labels: seq<string>, i: nat)
    requires i < |labels|
    ensures Strings.Contains(Build(fileContent, labels), labels[i])
  {
    var j := Strings.Join(labels, Delimiter);
    Strings.JoinContains(labels, Delimiter, i);
    var k :| 0 <= k <= |j| && Strings.OccursAt(labels[i], j, k);
    OccursInMiddle(Opening + fileContent + Preamble, j, Instructions, labels[i], k);
  }

  lemma OccursInMiddle(x: string, y: string, z: string, p: string, k: int)
    requires Strings.OccursAt(p, y, k)
    ensures Strings.OccursAt(p, x + y + z, |x| + k)
  {
    assert (x + y + z)[|x| + k..|x| + k + |p|] == y[k..k + |p|];
  }

  /** None of the six criteria is empty or contains `、`. */
  lemma CatalogueIsPlain()
    ensures forall l :: l in ReviewScope.CriteriaLabels ==> l != "" && Delimiter !in l
  {
    var c := ReviewScope.CriteriaLabels;
    assert Delimiter !in c[0] && Delimiter !in c[1] && Delimiter !in c[2];
    assert Delimiter !in c[3] && Delimiter !in c[4] && Delimiter !in c[5];
  }

  /** Labels drawn from the catalogue fit the prompt, so the round trip applies to any checked subset. */
  lemma CriteriaFitPrompt(items: seq<ReviewScope.ReviewTarget>)
    requires forall i :: 0 <= i < |items| ==> items[i].name in ReviewScope.CriteriaLabels
    ensures var labels := ReviewScope.CheckedLabels(items);
            forall i :: 0 <= i < |labels| ==> labels[i] != "" && Delimiter !in labels[i]
  {
    CatalogueIsPlain();
    var checked := ReviewScope.GetCheckedItems(items);
    forall i | 0 <= i < |checked|
      ensures checked[i].name in ReviewScope.CriteriaLabels
    {
      assert checked[i] in items;
    }
  }
}

=== FILE: review_scope_provider.dfy ===
/**
 * The review-scope checkbox list: six fixed review criteria, each with a selection
 * state, updated by label from checkbox events and read back as the checked ones.
 */
module ReviewScope {
  import opened Common

  /** A tree item: its label (`name`) and whether its checkbox is ticked. */
  datatype ReviewTarget = ReviewTarget(name: string, isSelected: bool)

  datatype CheckboxState = Unchecked | Checked

  /** One entry of a checkbox event: the item (known by its label) and its new state. */
  datatype CheckboxChange = CheckboxChange(name: string, state: CheckboxState)

  /** The criteria, in display order: naming, comments, exception handling, duplicated code, magic numbers, design patterns. */
  const CriteriaLabels: seq<string> := ["命名規則", "コメントアウト", "例外処理", "重複コード", "マジックナンバー", "デザインパターン"]

  function Labels(items: seq<ReviewTarget>): (r: seq<string>)
    ensures |r| == |items|
    ensures forall i :: 0 <= i < |items| ==> r[i] == items[i].name
  {
    seq(|items|, i requires 0 <= i < |items| => items[i].name)
  }

  predicate DistinctLabels(items: seq<ReviewTarget>) {
    forall i, j :: 0 <= i < j < |items| ==> items[i].name != items[j].name
  }

  /** The provider's list as constructed: every criterion, none selected. */
  function Initial(): (items: seq<ReviewTarget>)
    ensures |items| == 6
    ensures Labels(items) == CriteriaLabels
    ensures DistinctLabels(items)
    ensures forall i :: 0 <= i < |items| ==> !items[i].isSelected && items[i].name != ""
  {
    seq(|CriteriaLabels|, i requires 0 <= i < |CriteriaLabels| => ReviewTarget(CriteriaLabels[i], false))
  }

  /** `getChildren()`: the list itself, in its fixed order. */
  function GetChildren(items: seq<ReviewTarget>): seq<ReviewTarget> {
    items
  }

  /** `a` can be obtained from `b` by deleting elements. */
  predicate IsSubsequence<T(==)>(a: seq<T>, b: seq<T>)
    decreases |b|
  {
    |a| == 0 || (|b| > 0 && (if a[0] == b[0] then IsSubsequence(a[1..], b[1..]) else IsSubsequence(a, b[1..])))
  }

  /** `getCheckedItems()`: the selected items, in list order. */
  function GetCheckedItems(items: seq<ReviewTarget>): (r: seq<ReviewTarget>)
    ensures IsSubsequence(r, items)
    ensures forall x :: x in r <==> x in items && x.isSelected
  {
    if |items| == 0 then []
    else if items[0].isSelected then [items[0]] + GetCheckedItems(items[1..])
    else GetCheckedItems(items[1..])
  }

  /** Filtering a concatenation filters each part. */
  lemma {:induction false} CheckedOfAppend(a: seq<ReviewTarget>, b: seq<ReviewTarget>)
    ensures GetCheckedItems(a + b) == GetCheckedItems(a) + GetCheckedItems(b)
  {
    if |a| > 0 {
      assert (a + b)[1..] == a[1..] + b;
      assert (a + b)[0] == a[0];
      CheckedOfAppend(a[1..], b);
    } else {
      assert a + b == b;
    }
  }

  /** The labels `getCheckedItems().map(item => item.label)` hands to the prompt. */
  function CheckedLabels(items: seq<ReviewTarget>): seq<string> {
    Labels(GetCheckedItems(items))
  }

  /** The index of the first item with the given label (`find`), if any. */
  function FindTarget(items: seq<ReviewTarget>, name: string): (r: Option<nat>)
    ensures r.Some? ==> r.value < |items| && items[r.value].name == name
    ensures r.Some? ==> forall j :: 0 <= j < r.value ==> items[j].name != name
    ensures r.None? ==> forall j :: 0 <= j < |items| ==> items[j].name != name
  {
    if |items| == 0 then None
    else if items[0].name == name then Some(0)
    else match FindTarget(items[1..], name)
      case None => None
      case Some(k) => Some(k + 1)
  }

  /** One `[item, checkboxState]` entry of a checkbox event. */
  function ApplyChange(items: seq<ReviewTarget>, change: CheckboxChange): (r: seq<ReviewTarget>)
    ensures Labels(r) == Labels(items)
  {
    match FindTarget(items, change.name)
    case None => items
    case Some(k) => items[k := items[k].(isSelected := change.state == Checked)]
  }

  /** The `onDidChangeCheckboxState` handler: the entries are applied in order. */
  function OnCheckboxChange(items: seq<ReviewTarget>, changes: seq<CheckboxChange>): (r: seq<ReviewTarget>)
    ensures Labels(r) == Labels(items)
    decreases |changes|
  {
    if |changes| == 0 then items
    else OnCheckboxChange(ApplyChange(items, changes[0]), changes[1..])
  }

  /** The state the last entry naming `name` sets, if any entry names it. */
  function LastState(changes: seq<CheckboxChange>, name: string): Option<CheckboxState> {
    if |changes| == 0 then None
    else match LastState(changes[1..], name)
      case Some(s) => Some(s)
      case None => if changes[0].name == name then Some(changes[0].state) else None
  }

  /** Whether an item starting as `before` ends selected: as the last entry naming it says, else unchanged. */
  function SelectedAfter(changes: seq<CheckboxChange>, name: string, before: bool): bool {
    match LastState(changes, name)
    case Some(s) => s == Checked
    case None => before
  }

  /**
   * With distinct labels, an event leaves every item's label in place, sets the item a
   * label names to Checked-or-not as the last entry for it says, and leaves the items
   * no entry names unchanged; entries whose label matches nothing have no effect.
   */
  lemma {:induction false} CheckboxEventEffect(items: seq<ReviewTarget>, changes: seq<CheckboxChange>)
    requires DistinctLabels(items)
    ensures var r := OnCheckboxChange(items, changes);
            && |r| == |items|
            && DistinctLabels(r)
            && forall i :: 0 <= i < |items| ==>
                 && r[i].name == items[i].name
                 && r[i].isSelected == SelectedAfter(changes, items[i].name, items[i].isSelected)
    decreases |changes|
  {
    if |changes| > 0 {
      var next := ApplyChange(items, changes[0]);
      assert Labels(next) == Labels(items);
      assert |next| == |items| by { assert |Labels(next)| == |next|; }
      assert forall i :: 0 <= i < |items| ==> next[i].name == items[i].name by {
        forall i | 0 <= i < |items| ensures next[i].name == items[i].name {
          assert Labels(next)[i] == Labels(items)[i];
        }
      }
      assert DistinctLabels(next);
      CheckboxEventEffect(next, changes[1..]);
    }
  }
}

=== FILE: service_provider.dfy ===
/**
 * The service list of the sidebar (`view-container/review-service-provider.ts`): which
 * backend kind is selected; selecting one persists it, switches the factory to a new
 * backend of that kind and pushes that backend's models to the model list.
 */
module ServiceProvider {
  import opened Common
  import Utils
  import Radio
  import ModelProvider
  import AiServiceFactory
  import OllamaService
  import Strings

  const SelectTitle := "Select Service"
  const SelectCommand := "service.select"

  /** The provider's state: the selected kind and the listed kinds. */
  datatype ServiceView = ServiceView(selected: string, services: seq<string>)

  /**
   * The constructor: `copilot` selected among `[copilot, ollama]`, overridden by the
   * configured service when that is a non-empty string.
   */
  function New(configured: Option<string>): (v: ServiceView)
    ensures v.services == [AiServiceFactory.CopilotKind, AiServiceFactory.OllamaKind]
    ensures configured.Some? && configured.value != "" ==> v.selected == configured.value
    ensures configured.None? || configured.value == "" ==> v.selected == AiServiceFactory.CopilotKind
  {
    var initial := ServiceView(AiServiceFactory.CopilotKind, [AiServiceFactory.CopilotKind, AiServiceFactory.OllamaKind]);
    var defaultService := configured.GetOr(AiServiceFactory.CopilotKind);
    if defaultService != "" then initial.(selected := defaultService) else initial
  }

  function GetSelectedService(v: ServiceView): string {
    v.selected
  }

  /** `getChildren()`: the listed services. */
  function GetChildren(v: ServiceView): seq<string> {
    v.services
  }

  function GetTreeItem(v: ServiceView, element: string): (t: Radio.TreeItem)
    ensures t.icon == Radio.CircleFilled <==> element == GetSelectedService(v)
    ensures t.command == SelectCommand && t.argument == element
  {
    Radio.Item(element, v.selected, SelectTitle, SelectCommand)
  }

  /** `setupServices(services)`: replace the list and select its first entry, if any. */
  function SetupServices(v: ServiceView, services: seq<string>): (r: ServiceView)
    ensures r.services == services
    ensures |services| > 0 ==> r.selected == services[0]
    ensures |services| == 0 ==> r.selected == v.selected
  {
    if |services| > 0 then ServiceView(services[0], services) else ServiceView(v.selected, services)
  }

  /** Setting up the same list again changes nothing. */
  lemma SetupServicesIdempotent(v: ServiceView, services: seq<string>)
    ensures SetupServices(SetupServices(v, services), services) == SetupServices(v, services)
  {
  }

  /** How a selection ended: completed, the switch threw, or the model listing rejected. */
  datatype Outcome = Completed | SwitchThrew(error: string) | ListingRejected

  /** Everything `selectService` touches. */
  datatype Selection = Selection(
    view: ServiceView,
    write: Utils.ConfigWrite,
    factory: AiServiceFactory.Factory,
    models: ModelProvider.ModelView,
    outcome: Outcome)

  /**
   * The models a backend of `kind` offers when its listing reports `names`: the Ollama
   * backend sorts them; the Copilot backend the factory builds lives in
   * `src/ai-service/copilot-service.ts`, which is not part of this model, so its list
   * is taken as reported.
   */
  function Offered(kind: string, names: seq<string>): (r: seq<string>)
    ensures kind == AiServiceFactory.OllamaKind ==> Strings.Sorted(r) && multiset(r) == multiset(names)
    ensures kind != AiServiceFactory.OllamaKind ==> r == names
  {
    if kind == AiServiceFactory.OllamaKind then OllamaService.GetAvailableModels(names) else names
  }

  /**
   * `selectService(service)`: select it, persist it, switch the factory, then push the
   * models the new backend lists. `listed` is what that backend's model listing
   * reports; a throwing switch or a rejected listing ends the call early.
   */
  function SelectService(v: ServiceView, factory: AiServiceFactory.Factory, models: ModelProvider.ModelView,
                         service: string, inspect: Utils.Setting -> Option<Utils.Inspection>,
                         endpoint: Option<string>, listed: Attempt<seq<string>>): (r: Selection)
    requires AiServiceFactory.Valid(factory)
    ensures r.view == v.(selected := service)
    ensures r.write == Utils.ConfigWrite(Utils.ServiceSetting, service, Utils.GetConfigurationTarget(inspect))
    ensures AiServiceFactory.Valid(r.factory)
    ensures r.outcome.Completed? <==>
              (service == AiServiceFactory.CopilotKind || service == AiServiceFactory.OllamaKind) && listed.Ok?
    ensures r.outcome.SwitchThrew? <==> service != AiServiceFactory.CopilotKind && service != AiServiceFactory.OllamaKind
    ensures r.outcome.SwitchThrew? ==> r.factory == factory
    ensures !r.outcome.SwitchThrew? ==> AiServiceFactory.KindOf(AiServiceFactory.GetAiService(r.factory).backend) == service
    ensures r.outcome.Completed? ==> r.models == ModelProvider.SetupModels(models, Offered(service, listed.value))
    ensures !r.outcome.Completed? ==> r.models == models
  {
    var view := v.(selected := service);
    var write := Utils.ConfigWrite(Utils.ServiceSetting, service, Utils.GetConfigurationTarget(inspect));
    var (switched, err) := AiServiceFactory.SwitchAiService(factory, service, endpoint);
    if err.Some? then Selection(view, write, switched, models, SwitchThrew(err.value))
    else
      match listed
      case Threw => Selection(view, write, switched, models, ListingRejected)
      case Ok(names) => Selection(view, write, switched, ModelProvider.SetupModels(models, Offered(service, names)), Completed)
  }

  /**
   * After a successful selection the three views agree: the service list shows the
   * chosen kind, the factory serves a backend of that kind, and the model list holds
   * exactly that backend's models.
   */
  lemma SelectionIsConsistent(v: ServiceView, factory: AiServiceFactory.Factory, models: ModelProvider.ModelView,
                              service: string, inspect: Utils.Setting -> Option<Utils.Inspection>,
                              endpoint: Option<string>, listed: seq<string>)
    requires AiServiceFactory.Valid(factory)
    requires service == AiServiceFactory.CopilotKind || service == AiServiceFactory.OllamaKind
    ensures var r := SelectService(v, factory, models, service, inspect, endpoint, Ok(listed));
            && GetSelectedService(r.view) == AiServiceFactory.KindOf(AiServiceFactory.GetAiService(r.factory).backend)
            && ModelProvider.GetChildren(r.models) == Offered(service, listed)
            && multiset(ModelProvider.GetChildren(r.models)) == multiset(listed)
            && (service == AiServiceFactory.OllamaKind ==> Strings.Sorted(ModelProvider.GetChildren(r.models)))
            && Radio.Item(service, r.view.selected, "", "").icon == Radio.CircleFilled
  {
  }
}

=== FILE: strings.dfy ===
/**
 * String helpers the model relies on: accumulation of stream tokens, joining with a
 * one-character delimiter (and the split that undoes it), and the default
 * JavaScript `Array.prototype.sort` order on strings.
 */
module Strings {

  predicate IsPrefix(a: string, b: string) {
    |a| <= |b| && a == b[..|a|]
  }

  /** The concatenation of `ts` in order: what `acc += t` builds over the sequence. */
  function Concat(ts: seq<string>): string {
    if |ts| == 0 then "" else Concat(ts[..|ts| - 1]) + ts[|ts| - 1]
  }

  /** Concatenating more tokens only extends the text. */
  lemma {:induction false} ConcatPrefix(ts: seq<string>, j: nat, k: nat)
    requires j <= k <= |ts|
    ensures IsPrefix(Concat(ts[..j]), Concat(ts[..k]))
  {
    if j < k {
      ConcatPrefix(ts, j, k - 1);
      assert ts[..k][..k - 1] == ts[..k - 1];
      assert Concat(ts[..k]) == Concat(ts[..k - 1]) + ts[k - 1];
    }
  }

  /** `parts.join(sep)` for a one-character separator. */
  function Join(parts: seq<string>, sep: char): string {
    if |parts| == 0 then ""
    else if |parts| == 1 then parts[0]
    else parts[0] + [sep] + Join(parts[1..], sep)
  }

  /** Splits at every `sep`; always at least one field. */
  function Fields(s: string, sep: char): (r: seq<string>)
    ensures |r| >= 1
  {
    if |s| == 0 then [""]
    else
      var rest := Fields(s[1..], sep);
      if s[0] == sep then [""] + rest
      else [[s[0]] + rest[0]] + rest[1..]
  }

  /** Splits at every `sep`; the empty string has no fields. */
  function Split(s: string, sep: char): seq<string> {
    if s == "" then [] else Fields(s, sep)
  }

  lemma {:induction false} FieldsOfPlain(p: string, sep: char)
    requires sep !in p
    ensures Fields(p, sep) == [p]
  {
    if |p| > 0 {
      FieldsOfPlain(p[1..], sep);
      assert [p[0]] + p[1..] == p;
    }
  }

  lemma {:induction false} FieldsOfPlainThenSep(p: string, sep: char, rest: string)
    requires sep !in p
    ensures Fields(p + [sep] + rest, sep) == [p] + Fields(rest, sep)
  {
    if |p| == 0 {
      assert p + [sep] + rest == [sep] + rest;
      assert ([sep] + rest)[1..] == rest;
    } else {
      FieldsOfPlainThenSep(p[1..], sep, rest);
      assert (p + [sep] + rest)[1..] == p[1..] + [sep] + rest;
      assert [p[0]] + p[1..] == p;
    }
  }

  lemma {:induction false} FieldsOfJoin(parts: seq<string>, sep: char)
    requires |parts| >= 1
    requires forall i :: 0 <= i < |parts| ==> sep !in parts[i]
    ensures Fields(Join(parts, sep), sep) == parts
  {
    if |parts| == 1 {
      FieldsOfPlain(parts[0], sep);
    } else {
      FieldsOfJoin(parts[1..], sep);
      FieldsOfPlainThenSep(parts[0], sep, Join(parts[1..], sep));
      assert [parts[0]] + parts[1..] == parts;
    }
  }

  lemma {:induction false} JoinNonEmpty(parts: seq<string>, sep: char)
    requires |parts| >= 1 && parts[0] != ""
    ensures Join(parts, sep) != ""
  {
    if |parts| > 1 {
      assert |Join(parts, sep)| >= |parts[0]|;
    }
  }

  /**
   * Joining non-empty, delimiter-free labels and splitting the text again gives the
   * labels back, in order; in particular no label that was not joined can be read back.
   */
  lemma SplitJoin(parts: seq<string>, sep: char)
    requires forall i :: 0 <= i < |parts| ==> parts[i] != "" && sep !in parts[i]
    ensures Split(Join(parts, sep), sep) == parts
  {
    if |parts| > 0 {
      JoinNonEmpty(parts, sep);
      FieldsOfJoin(parts, sep);
    }
  }

  /** `p` occurs in `s` starting at index `k`. */
  predicate OccursAt(p: string, s: string, k: int) {
    0 <= k && k + |p| <= |s| && s[k..k + |p|] == p
  }

  /** `s.includes(p)` */
  predicate Contains(s: string, p: string) {
    exists k | 0 <= k <= |s| :: OccursAt(p, s, k)
  }

  /** Every joined part occurs in the joined text. */
  lemma {:induction false} JoinContains(parts: seq<string>, sep: char, i: nat)
    requires i < |parts|
    ensures Contains(Join(parts, sep), parts[i])
  {
    var j := Join(parts, sep);
    if |parts| == 1 || i == 0 {
      assert OccursAt(parts[i], j, 0);
    } else {
      JoinContains(parts[1..], sep, i - 1);
      var rest := Join(parts[1..], sep);
      var p := parts[i];
      assert parts[1..][i - 1] == p;
      var k :| 0 <= k <= |rest| && OccursAt(p, rest, k);
      var off := |parts[0]| + 1;
      assert j == parts[0] + [sep] + rest;
      assert j[off + k..off + k + |parts[i]|] == rest[k..k + |parts[i]|];
      assert OccursAt(parts[i], j, off + k);
    }
  }

  // ---------------------------------------------------------------------------
  // Sorting in the default JavaScript order (character by character)

  /** `a` sorts no later than `b`. */
  predicate LexLe(a: string, b: string) {
    |a| == 0 || (|b| > 0 && (a[0] < b[0] || (a[0] == b[0] && LexLe(a[1..], b[1..]))))
  }

  lemma {:induction false} LexLeTotal(a: string, b: string)
    ensures LexLe(a, b) || LexLe(b, a)
  {
    if |a| > 0 && |b| > 0 && a[0] == b[0] {
      LexLeTotal(a[1..], b[1..]);
    }
  }

  lemma {:induction false} LexLeTrans(a: string, b: string, c: string)
    requires LexLe(a, b) && LexLe(b, c)
    ensures LexLe(a, c)
  {
    if |a| > 0 && |b| > 0 && |c| > 0 && a[0] == b[0] && b[0] == c[0] {
      LexLeTrans(a[1..], b[1..], c[1..]);
    }
  }

  lemma {:induction false} LexLeAntisym(a: string, b: string)
    requires LexLe(a, b) && LexLe(b, a)
    ensures a == b
  {
    if |a| > 0 {
      LexLeAntisym(a[1..], b[1..]);
      assert a == [a[0]] + a[1..];
      assert b == [b[0]] + b[1..];
    }
  }

  predicate Sorted(s: seq<string>) {
    forall i, j :: 0 <= i < j < |s| ==> LexLe(s[i], s[j])
  }

  /** Inserting a name no smaller than the head into the tail keeps the head a lower bound. */
  lemma HeadBoundsInsertion(x: string, s: seq<string>, t: seq<string>)
    requires Sorted(s) && |s| > 0 && LexLe(s[0], x)
    requires multiset(t) == multiset(s[1..]) + multiset{x}
    ensures forall j :: 0 <= j < |t| ==> LexLe(s[0], t[j])
  {
    forall j | 0 <= j < |t|
      ensures LexLe(s[0], t[j])
    {
      assert t[j] in multiset(t);
      if t[j] != x {
        assert t[j] in s[1..];
        var m :| 0 <= m < |s[1..]| && s[1..][m] == t[j];
        assert s[m + 1] == t[j];
      }
    }
  }

  /** Inserts `x` before the first element it sorts no later than. */
  function Insert(x: string, s: seq<string>): (r: seq<string>)
    requires Sorted(s)
    ensures Sorted(r)
    ensures multiset(r) == multiset(s) + multiset{x}
    ensures |r| == |s| + 1
  {
    if |s| == 0 then [x]
    else if LexLe(x, s[0]) then
      assert forall j :: 0 <= j < |s| ==> LexLe(x, s[j]) by {
        forall j | 0 <= j < |s| ensures LexLe(x, s[j]) { if j > 0 { LexLeTrans(x, s[0], s[j]); } }
      }
      [x] + s
    else
      LexLeTotal(x, s[0]);
      var t := Insert(x, s[1..]);
      assert s == [s[0]] + s[1..];
      HeadBoundsInsertion(x, s, t);
      [s[0]] + t
  }

  /** The names in ascending order: a sorted permutation of the input. */
  function SortStrings(s: seq<string>): (r: seq<string>)
    ensures Sorted(r)
    ensures multiset(r) == multiset(s)
    ensures |r| == |s|
  {
    if |s| == 0 then []
    else
      assert s == s[..|s| - 1] + [s[|s| - 1]];
      Insert(s[|s| - 1], SortStrings(s[..|s| - 1]))
  }

  /** The head of a sorted sequence sorts no later than any of its elements. */
  lemma SortedHeadIsLeast(s: seq<string>, x: string)
    requires Sorted(s) && x in multiset(s)
    ensures |s| > 0 && LexLe(s[0], x)
  {
    var i :| 0 <= i < |s| && s[i] == x;
    if i == 0 {
      LexLeTotal(x, x);
    }
  }

  /** Two sorted arrangements of the same names are the same sequence. */
  lemma {:induction false} SortedUnique(a: seq<string>, b: seq<string>)
    requires Sorted(a) && Sorted(b) && multiset(a) == multiset(b)
    ensures a == b
  {
    if |a| == 0 {
      assert |multiset(b)| == 0;
    } else {
      assert |b| == |a| by { assert |multiset(a)| == |a| && |multiset(b)| == |b|; }
      SortedHeadIsLeast(b, a[0]);
      SortedHeadIsLeast(a, b[0]);
      LexLeAntisym(a[0], b[0]);
      assert a == [a[0]] + a[1..];
      assert b == [b[0]] + b[1..];
      assert multiset(a) == multiset{a[0]} + multiset(a[1..]);
      assert multiset(b) == multiset{b[0]} + multiset(b[1..]);
      assert multiset(a[1..]) == multiset(a) - multiset{a[0]};
      assert multiset(b[1..]) == multiset(b) - multiset{b[0]};
      SortedUnique(a[1..], b[1..]);
    }
  }

  /** Sorting is insensitive to the order the names arrive in, and sorting twice changes nothing. */
  lemma SortIsCanonical(s: seq<string>, t: seq<string>)
    requires multiset(s) == multiset(t)
    ensures SortStrings(s) == SortStrings(t)
    ensures SortStrings(SortStrings(s)) == SortStrings(s)
  {
    SortedUnique(SortStrings(s), SortStrings(t));
    SortedUnique(SortStrings(SortStrings(s)), SortStrings(s));
  }
}

=== FILE: utils.dfy ===
/**
 * Static helpers of the extension: where a setting is written back to, and the
 * nonce that guards the preview panel's scripts.
 */
module Utils {
  import opened Common

  /** The configuration section every setting of the extension lives in. */
  const ConfigName := "reviewOnSave"

  /**
   * The settings the extension reads or writes. `DefaultModel` and `ServiceSetting`
   * are constants the view-container files import but that no file defines; they are
   * kept apart from `ModelSetting` ("model") and `ScopeSetting` ("reviewTargets").
   */
  datatype Setting = ModelSetting | ScopeSetting | DefaultModel | ServiceSetting | AiServiceTypeSetting | ApiEndpointSetting

  datatype ConfigurationTarget = Global | Workspace | WorkspaceFolder

  /** What `config.inspect` reports of one setting, scope by scope. */
  datatype Inspection = Inspection(globalValue: Option<string>, workspaceValue: Option<string>, workspaceFolderValue: Option<string>)

  /** A pending `config.update(setting, value, target)`. */
  datatype ConfigWrite = ConfigWrite(setting: Setting, value: string, target: ConfigurationTarget)

  /**
   * The persistence scope for a write: the workspace if the setting already has a
   * workspace value, else the workspace folder if it has a folder value, else global
   * (also when nothing could be inspected).
   */
  function TargetFor(inspection: Option<Inspection>): (t: ConfigurationTarget)
    ensures t == Workspace <==> inspection.Some? && inspection.value.workspaceValue.Some?
    ensures t == WorkspaceFolder <==>
              inspection.Some? && inspection.value.workspaceValue.None? && inspection.value.workspaceFolderValue.Some?
    ensures t == Global <==>
              inspection.None? || (inspection.value.workspaceValue.None? && inspection.value.workspaceFolderValue.None?)
  {
    match inspection
    case None => Global
    case Some(i) =>
      if i.workspaceValue.Some? then Workspace
      else if i.workspaceFolderValue.Some? then WorkspaceFolder
      else Global
  }

  /**
   * `getConfigurationTarget()`: the scope is chosen from the inspection of the model
   * setting, whichever setting the caller is about to write.
   */
  function GetConfigurationTarget(inspect: Setting -> Option<Inspection>): (t: ConfigurationTarget)
    ensures t == Workspace <==> inspect(ModelSetting).Some? && inspect(ModelSetting).value.workspaceValue.Some?
    ensures t == WorkspaceFolder <==>
              && inspect(ModelSetting).Some?
              && inspect(ModelSetting).value.workspaceValue.None?
              && inspect(ModelSetting).value.workspaceFolderValue.Some?
  {
    TargetFor(inspect(ModelSetting))
  }

  /** Only the model setting's inspection decides the scope. */
  lemma TargetReadsOnlyModelSetting(a: Setting -> Option<Inspection>, b: Setting -> Option<Inspection>)
    requires a(ModelSetting) == b(ModelSetting)
    ensures GetConfigurationTarget(a) == GetConfigurationTarget(b)
  {
  }

  /** The inspection after a value has been stored at `target` (the editor's storage). */
  function Store(inspection: Option<Inspection>, target: ConfigurationTarget, value: string): Inspection {
    var i := inspection.GetOr(Inspection(None, None, None));
    match target
    case Global => i.(globalValue := Some(value))
    case Workspace => i.(workspaceValue := Some(value))
    case WorkspaceFolder => i.(workspaceFolderValue := Some(value))
  }

  /**
   * Writing to the chosen scope keeps that scope the chosen one: the next write of the
   * same setting goes to the same place, and that place holds the value just written.
   */
  lemma TargetIsStable(inspection: Option<Inspection>, value: string)
    ensures TargetFor(Some(Store(inspection, TargetFor(inspection), value))) == TargetFor(inspection)
    ensures var s := Store(inspection, TargetFor(inspection), value);
            match TargetFor(inspection)
            case Global => s.globalValue == Some(value)
            case Workspace => s.workspaceValue == Some(value)
            case WorkspaceFolder => s.workspaceFolderValue == Some(value)
  {
  }

  // ---------------------------------------------------------------------------
  // Nonce

  const NonceLength := 32

  /** The i-th character of "ABC…Zabc…z0…9": capitals, then small letters, then digits. */
  function AlphabetChar(i: int): char {
    if i < 26 then ('A' as int + (if i < 0 then 0 else i)) as char
    else if i < 52 then ('a' as int + (i - 26)) as char
    else ('0' as int + (if i < 62 then i - 52 else 9)) as char
  }

  /** `possible`: "ABCDEFGHIJKLMNOPQRSTUVWXYZabcdefghijklmnopqrstuvwxyz0123456789". */
  function Possible(): string {
    seq(62, AlphabetChar)
  }

  predicate IsAlphanumeric(c: char) {
    ('A' <= c <= 'Z') || ('a' <= c <= 'z') || ('0' <= c <= '9')
  }

  /** The alphabet has 62 distinct alphanumeric characters. */
  lemma PossibleIsAlphanumeric()
    ensures |Possible()| == 62
    ensures forall i :: 0 <= i < |Possible()| ==> IsAlphanumeric(Possible()[i])
    ensures forall i, j :: 0 <= i < j < |Possible()| ==> Possible()[i] != Possible()[j]
  {
  }

  /** `possible.charAt(i)`: one character, or "" past the end. */
  function CharAt(s: string, i: nat): (r: string)
    ensures i < |s| ==> r == [s[i]]
    ensures i >= |s| ==> r == ""
  {
    if i < |s| then [s[i]] else ""
  }

  /**
   * `getNonce()` with `Math.floor(Math.random() * 62)` replaced by the oracle
   * `draws`, one index per iteration.
   */
  method GetNonce(draws: seq<nat>) returns (text: string)
    requires |draws| == NonceLength
    requires forall i :: 0 <= i < |draws| ==> draws[i] < |Possible()|
    ensures |text| == NonceLength
    ensures forall i :: 0 <= i < NonceLength ==> text[i] == Possible()[draws[i]]
    ensures forall i :: 0 <= i < |text| ==> IsAlphanumeric(text[i])
  {
    PossibleIsAlphanumeric();
    text := "";
    var i := 0;
    while i < NonceLength
      invariant 0 <= i <= NonceLength
      invariant |text| == i
      invariant forall k :: 0 <= k < i ==> text[k] == Possible()[draws[k]]
    {
      text := text + CharAt(Possible(), draws[i]);
      i := i + 1;
    }
  }

  /** Every 32-character alphanumeric string is the nonce of some sequence of draws. */
  lemma NonceReachable(t: string)
    requires |t| == NonceLength
    requires forall i :: 0 <= i < |t| ==> IsAlphanumeric(t[i])
    ensures exists draws: seq<nat> ::
              && |draws| == NonceLength
              && (forall i :: 0 <= i < |draws| ==> draws[i] < |Possible()| && Possible()[draws[i]] == t[i])
  {
    var draws := seq(NonceLength, i requires 0 <= i < NonceLength => IndexIn(t[i]));
    assert forall i :: 0 <= i < |draws| ==> draws[i] < |Possible()| && Possible()[draws[i]] == t[i];
  }

  /** The position of an alphanumeric character in the alphabet. */
  function IndexIn(c: char): (i: nat)
    requires IsAlphanumeric(c)
    ensures i < |Possible()| && Possible()[i] == c
  {
    if 'A' <= c <= 'Z' then c as int - 'A' as int
    else if 'a' <= c <= 'z' then 26 + (c as int - 'a' as int)
    else 52 + (c as int - '0' as int)
  }
}
